=== FILE: README.md ===
# Space-Invader-Advance in Dafny

A model of the game logic of `script.js`, a browser shooter drawn on an
800 by 600 canvas. The player moves along the bottom row and fires upward.
Enemies fall from the top. From score 12 a monster wanders, takes five hits
and shoots back. The game ends when a monster bullet hits the player or
something comes down past the player's top edge.

The game's global variables are one immutable record, `GameState.Game`.
Every handler and timer callback is a pure function from `Game` to `Game`:

- `Controls` holds the keyboard handlers, the Play, Pause/Resume and Exit
  buttons, `startGame`, `pauseGame`, `resumeGame`, `exitGame`, and the three
  spawner callbacks.
- `Update.Tick` is one call of `update`: prune and move, wander and dodge,
  the collision pass, then the two game-over checks.
- `Collisions` follows JavaScript's `forEach`/`splice` semantics exactly. The
  number of visits is fixed at the start. An index past the current end is
  skipped. `splice` past the end removes nothing. So a hit skips the next
  enemy, and a bullet that hits twice also removes the next bullet, if
  there is one, which is then never checked itself. The
  imperative `RunCollisionPass` is proved equal to the functional pass.
- `Timers` makes `setInterval`/`clearInterval` abstract state. A handle
  variable names the last interval assigned to it. An interval overwritten
  while still running becomes a *stray* that keeps firing and can never be
  cleared. This is how pressing Play twice stacks timers.
- `Traces` runs any sequence of events that can occur. A timer callback is
  admissible only while an interval of its kind fires. The reachable-state
  invariant `Inv` holds along every such run.

`Math.random()` becomes parameters: a value for `createEnemy`, the flip
and turn draws of the monster's wander, and a stream `spawn` for the
monsters created during one collision pass. The spawners and the trace
admissibility require every draw to be a real in [0, 1); `Update.Tick`
itself accepts any reals for the flip and turn draws. All
coordinates are exact reals: every constant in the game is rational.

Two consequences of the code are worth stating on their own:

- A bullet at (117.5, 50) and an enemy at (100, 0) collide on the second
  frame, not the first (`Scenarios.BulletMeetsEnemy`). Pruning looks at
  positions before the move. The bullet rises 6 per frame and the enemy
  falls 2, so after one frame the bullet's top is at 44 and the enemy's
  bottom at 42.
- The game has no separate idle, paused and exited states, only the two
  flags `isPaused` and `isGameOver`. Pausing a finished game sets
  `isPaused`, so Play then resets the game but starts no timer
  (`Controls.PlayWhilePausedAfterGameOver`). Exit is the same state change
  as a game over.

## Model

| member | source | states |
|---|---|---|
| `Geometry.OverlapsIffSharedPoint` | script.js:178-181 | For rectangles with positive sides, the strict four-comparison collision test holds exactly when the two interiors share a point. |
| `Geometry.OverlapsSymmetric` | script.js:199-202 | The collision test does not depend on which rectangle is named first. |
| `Geometry.TouchingDoNotOverlap` | script.js:216-219 | Rectangles that only share an edge do not collide, because the comparisons are strict. |
| `Entities.MovePlayer` | script.js:41-53 | ArrowLeft moves 15 left clamped at 0; ArrowRight moves 15 right clamped at 735 (canvas minus player width); any other key leaves x unchanged. |
| `Entities.MovePlayerAllStaysOnCanvas` | script.js:41-53 | Any sequence of key presses keeps an on-canvas player within [0, 735]. |
| `Entities.ShotFrom` | script.js:61-63 | The player's bullet is 5 by 10, on the player's row, centred on the player. |
| `Entities.EnemyAt` | script.js:65-70 | A new enemy is 40 by 40, on the top edge, and wholly inside the canvas horizontally for every draw in [0, 1). |
| `Entities.EnemyAtCovers` | script.js:68 | Every x from 0 up to (not including) 760 is where some draw in [0, 1) places the new enemy. |
| `Entities.EnemyAtMonotone` | script.js:68 | A larger draw places the new enemy strictly further right. |
| `Entities.MonsterAt` | script.js:72-83 | A new monster is 80 by 60, has speed 1 and health 5, sits on the top edge, and is wholly inside the canvas horizontally. |
| `Entities.MonsterAtCovers` | script.js:76 | Every x from 0 up to (not including) 720 is where some draw in [0, 1) places the new monster. |
| `Entities.MonsterAtMonotone` | script.js:76 | A larger draw places the new monster strictly further right. |
| `Entities.MonsterShot` | script.js:85-89 | A monster bullet is 5 by 10, centred under the monster and starting at its bottom edge. |
| `Entities.Turn` | script.js:92-94 | The wander direction is -1 exactly for draws below one half, and +1 otherwise. |
| `Entities.Keep` | script.js:113 | `filter` keeps each element satisfying the test exactly as often as it occurs, and drops the rest. |
| `Entities.KeepAppend` | script.js:113 | `filter` keeps the order: filtering a concatenation is filtering each part and concatenating. |
| `Entities.KeepOne` | script.js:113 | A single element is kept exactly when it passes the test; with `KeepAppend` this fixes the result element by element. |
| `Entities.ShiftBack` | script.js:114-117 | Moving every element back by the same amount restores the collection: the per-frame move loses nothing. |
| `Entities.ShiftCount` | script.js:114-117 | The per-frame move is one-to-one: each moved rectangle occurs exactly as often as the rectangle it came from. |
| `Entities.ShiftAppend` | script.js:114-117 | The per-frame move keeps the order: moving a concatenation moves each part in place. |
| `Entities.Survivors` | script.js:122-126 | After prune-then-move, a rectangle is in the collection exactly when it is a survivor of the test, moved: both directions of membership. |
| `Entities.SurvivorsCount` | script.js:122-126 | After prune-then-move, each moved survivor occurs exactly as often as its origin did, and a rectangle whose origin fails the test does not occur. |
| `Entities.SurvivorsAppend` | script.js:122-126 | Prune-then-move keeps the order: on a concatenation it works on each part and concatenates. |
| `Entities.SurvivorsOne` | script.js:122-126 | A single rectangle survives, moved by the step, exactly when it passes the test. |
| `Timers.SetInterval` | script.js:252-254 | `setInterval` makes the handle name a running interval with the given period, and one more interval of that kind fires. |
| `Timers.ClearInterval` | script.js:259-262 | `clearInterval` stops exactly the interval the handle names; strays keep firing and the handle keeps its value. |
| `Timers.ClearIntervalIdempotent` | script.js:239-242 | Clearing an already cleared handle changes nothing. |
| `Timers.ReArmAddsNoStray` | script.js:190-191 | Clearing the bullet handle before re-arming it leaves no stray: exactly one more interval than before fires. |
| `GameState.Init` | script.js:12-27 | The page-load state has score 0, no entities and no monster, the player at x 367.5, fire period 150, both flags false and no timer firing. |
| `GameState.StopAll` | script.js:258-262 | Clearing the four handles stops every handled timer, leaves only strays firing, and changes nothing else. |
| `GameState.Halt` | script.js:239-243 | Game over stops every handled timer and sets `isGameOver`; a sound state becomes one satisfying the invariant. |
| `Controls.StartGame` | script.js:250-256 | Unless the game is over or paused, the frame (1000/60 ms), enemy (2000 ms) and auto-fire (current rate) timers start, each adding one firing interval; otherwise nothing changes. |
| `Controls.PauseGame` | script.js:258-267 | Pausing stops every handled timer and sets `isPaused` whatever the flags, leaving score, entities and the monster-bullet handle's presence alone. |
| `Controls.ResumeGame` | script.js:269-274 | Only a paused game that is not over resumes, restarting the three main timers but not the monster's; otherwise nothing changes. |
| `Controls.ExitGame` | script.js:276-286 | Exit stops every handled timer and sets `isGameOver`, keeping score and entities. |
| `Controls.PlayClicked` | script.js:290-304 | Play on a finished game resets score, entities, player position and fire rate but not the wander direction or the monster-bullet handle; it then starts the timers unless paused. |
| `Controls.PauseResumeClicked` | script.js:306-314 | The button resumes a paused game and pauses any other; a paused finished game stays as it is. |
| `Controls.KeyDown` | script.js:41-53 | A key press sets the player's x to `MovePlayer` of the old x and the key, in any state, keeps it on the canvas, and changes nothing else. |
| `Controls.KeyUp` | script.js:55-59 | Releasing Space adds one shot from the player unless the game is over, also while paused; any other key changes nothing. |
| `Controls.ShootBullet` | script.js:61-63 | The auto-fire callback appends exactly one shot from the player and changes nothing else. |
| `Controls.CreateEnemy` | script.js:65-70 | The enemy callback appends exactly one enemy, the one `EnemyAt` places for the draw, on the top edge and inside the canvas, keeping the earlier ones in order. |
| `Controls.ShootMonsterBullet` | script.js:85-89 | The monster callback appends one shot under the monster when there is one, and otherwise does nothing. |
| `Controls.PauseThenResume` | script.js:258-274 | Pause then Resume keeps the world and restarts the three main timers; the monster's timer stays stopped with its handle still set. |
| `Controls.PlayAfterExit` | script.js:276-304 | After Exit, Play starts a fresh game with running timers. |
| `Controls.DoublePlayLeavesStrays` | script.js:250-256 | Pressing Play twice stacks timers: after a pause an interval of each main kind still fires. |
| `Controls.PlayWhilePausedAfterGameOver` | script.js:251 | Pausing a finished game and pressing Play resets it but leaves it paused with no timer running. |
| `Update.Advance` | script.js:111-135 | Bullets at or above the top edge are dropped and the rest rise by 6; monster bullets and enemies at or below the bottom edge are dropped and the rest fall by 2; both directions of membership, and soundness is kept. |
| `Update.AdvanceCounts` | script.js:113-135 | For each of the three collections, every moved survivor occurs exactly as often as its origin did (two equal shots stay two), and nothing else occurs. |
| `Update.AdvanceAppend` | script.js:113-135 | For each of the three collections, the frame keeps the order: on a concatenation it advances each part and concatenates. |
| `Update.AdvanceOne` | script.js:113-135 | A single bullet is dropped at y <= 0 and otherwise rises 6; a single monster bullet or enemy is dropped at y >= 600 and otherwise falls 2. |
| `Update.Heading` | script.js:143-146 | The heading changes only on a flip draw below 0.01, when it is redrawn from the turn draw; a unit direction stays a unit direction. |
| `Update.Steer` | script.js:139-156 | The monster falls by its speed and steps sideways by its speed in the heading (redrawn when the flip draw is below 0.01). A step ending left of 0 is clamped to 0 with direction +1; one ending past 800 - w is clamped there with direction -1; otherwise the step stands and the heading is kept. The monster stays in [0, 720]. |
| `Update.Dodge` | script.js:159-170 | The dodge changes only the monster's x and keeps it within twice its speed of the walls. |
| `Update.DodgeCanPassTheWall` | script.js:163-164 | The dodge guard tests the position before the step, so a monster at x 719 can be pushed to 721, past the wander bound. |
| `Update.MoveMonster` | script.js:138-172 | Only the monster and the direction change. With a monster, the new direction is the wander's, and the new monster is the wandered one below score 50 and the wandered one after the dodge from 50; it falls by its speed, keeps its health, stays within [0, 720] below score 50, and a well-formed monster stays within (-2, 722) even with the dodge. |
| `Update.Breached` | script.js:238 | The game-over test holds exactly when some enemy's bottom edge, or the monster's, is below the player's top edge. |
| `Update.Tick` | script.js:100-248 | A paused or finished game is unchanged. Otherwise the frame moves everything and runs the collision pass; if the game goes on, the result is exactly that state, and if it ends (exactly when a monster bullet overlaps the player or something has come down past the player's top) it is that state with some monster bullets spliced out and every handled timer stopped. The score never drops and the invariant is kept. |
| `Collisions.RemoveAt` | script.js:182-183 | `splice(i, 1)` removes exactly the element at i and shifts the rest down; past the end it removes nothing. |
| `Collisions.Escalate` | script.js:185-195 | At score 12 or more a monster is created if there is none and auto-fire is re-armed at 75 ms; at 30 or more the monster-bullet timer is armed at 300 ms, only while its handle is null. |
| `Collisions.OnEnemyHit` | script.js:182-195 | An enemy hit splices out the enemy at index j and whatever bullet sits at the outer index i (with `RemoveAt`'s contract: exactly that element, the rest shifted down, nothing past the end), scores one, and applies the threshold effects. |
| `Collisions.EnemyLoop` | script.js:177-197 | Over one bullet's enemy loop the score rises by exactly the number of enemies removed, no hit means nothing changed, and every monster created is either still there or was defeated. |
| `Collisions.EnemyLoopRemovesOverlapping` | script.js:177-183 | An enemy loop removes only enemies that its bullet overlaps. |
| `Collisions.EnemyLoopFinds` | script.js:177-183 | An enemy loop that reaches an enemy its bullet overlaps scores at least once. |
| `Collisions.EnemyLoopSpends` | script.js:182-183 | An enemy loop that scores for a bullet still in the array splices a bullet out. |
| `Collisions.RunEnemyLoop` | script.js:177-197 | The inner loop written over the enemy index, applying the same hit step, computes exactly the functional enemy loop, with the score rising by the hits. |
| `Collisions.StrikeMonster` | script.js:203-210 | A monster hit costs one health; the monster disappears exactly when its health was 1, and then the score gains 5 and the monster-bullet handle is nulled. |
| `Collisions.MonsterCheck` | script.js:199-211 | A bullet that misses the monster changes nothing. A hit splices out whatever bullet now sits at index i; a monster with health above 1 survives with one health less, the same position and speed, no score, no defeat and its timer untouched; otherwise it is gone, a defeat is counted, 5 is scored and the monster-bullet handle is nulled. |
| `Collisions.BulletLoop` | script.js:176-212 | Over the bullet loop the score rises by one per enemy hit plus five per defeat, enemies only ever leave, and defeats plus the monster still present equal the monster present at the start plus those created. |
| `Collisions.BulletLoopRemovesOverlapping` | script.js:176-197 | A bullet loop removes only enemies that some bullet present at its start overlaps. |
| `Collisions.BulletLoopBusy` | script.js:176-212 | A bullet loop that reaches a bullet striking an enemy or the monster splices a bullet out, because the bullets before it struck nothing. |
| `Collisions.CollisionPass` | script.js:175-212 | The whole pass: score gained equals hits plus five times defeats, one enemy leaves per hit, nothing is added, every defeat is of a monster present at the start or created in the pass, and soundness is kept. |
| `Collisions.RunCollisionPass` | script.js:176-212 | The pass written as two nested loops over the bullet and enemy indices, applying the same hit steps, computes exactly the functional pass; along the loop the score stays the initial score plus hits plus five per defeat, and one enemy has left per hit. |
| `Collisions.QuietPass` | script.js:176-212 | When no bullet overlaps an enemy or the monster, the pass leaves the game unchanged. |
| `Collisions.CollisionPassRemovesOverlapping` | script.js:176-197 | Every enemy the pass removes overlaps some bullet present at the start of the frame's pass. |
| `Collisions.PassIsQuietIff` | script.js:176-212 | The pass leaves the game unchanged exactly when no bullet strikes an enemy or the monster; otherwise it splices out at least one bullet. |
| `Collisions.StrikePlayer` | script.js:220-225 | A monster bullet hitting the player is spliced out at its index, every handled timer stops and the game is over; nothing else changes. |
| `Collisions.PlayerHits` | script.js:215-230 | The monster-bullet pass either leaves the game unchanged or ends it with every handled timer stopped. |
| `Collisions.PlayerHitsDetects` | script.js:215-230 | The monster-bullet pass ends the game exactly when some monster bullet overlaps the player, despite the splice while iterating. |
| `Traces.InitSatisfiesInv` | script.js:12-27 | The page-load state satisfies the reachable-state invariant. |
| `Traces.Step` | script.js:38-316 | Each event goes to its handler; only Play lowers the score, and only on a finished game; only Play restarts a finished game; only Exit or a frame ends one. |
| `Traces.StepPreservesInv` | script.js:38-316 | Every possible event keeps the invariant, and only Play on a finished game lowers the score. |
| `Traces.RunPreservesInv` | script.js:38-316 | After any possible run the player stays on the canvas, monsters keep health 1 to 5, and nothing handled fires while paused or over. |
| `Traces.ScoreNeverDrops` | script.js:184-207 | Without Play the score never decreases. |
| `Traces.OverIsFrozen` | script.js:100-102 | Once the game is over, frames, Pause/Resume and Exit never change the score or the entities. |
| `Scenarios.BulletMeetsEnemy` | script.js:113-135 | A bullet at (117.5, 50) and an enemy at (100, 0) miss on the first frame and collide on the second, scoring 1. |
| `Scenarios.SpliceRemovesInnocentBullet` | script.js:176-197 | A bullet that hits two enemies also removes the next bullet, here one that overlaps nothing and is never checked itself, and the enemy between them survives. |
| `Scenarios.SpliceSkipsNextEnemy` | script.js:177-183 | After a splice the next enemy is skipped: a bullet overlapping two adjacent enemies removes only the first. |
| `Scenarios.MonsterBulletEndsGame` | script.js:215-229 | A monster bullet reaching the player ends the game with all handled timers stopped, and later frames change nothing. |
| `Scenarios.MonsterCreatedOnce` | script.js:185-192 | The twelfth point creates a monster with full health and halves the fire period; the next hit creates no other. |
| `Scenarios.FiveHitsDefeatMonster` | script.js:199-210 | A fresh monster survives four hits and falls to the fifth, scoring 5 and nulling the monster-bullet handle. |
| `Scenarios.SpaceFiresWhilePaused` | script.js:55-59 | Releasing Space fires while the game is paused. |

## Left out

- Drawing: the canvas, images, fill colours, fonts and every `fillText` (script.js:1-4, 29-36, 104-108, 116, 125, 134, 171, 226-228, 233-235, 244-246, 264-266, 282-285). Only the state changes are modelled.
- DOM wiring: the `addEventListener` registrations (script.js:38-39, 290, 306, 316) and the button label written by the Pause/Resume button (script.js:309, 312). The handlers themselves are modelled.
- Real time: the timers' periods are recorded but not simulated. Timer callbacks, frames and user input can happen in any order the firing intervals allow. A stray interval's period is not recorded.
- Floating point: the source computes with IEEE doubles; the model uses exact reals, so rounding is not modelled. Every constant and per-frame step in the game is rational.
- `Math.random()`: each draw is a parameter, in [0, 1) wherever a spawner or an admissible trace uses it. The draws are not uniform and have no distribution.
- `playerY` is the constant 535. The source only ever assigns it that value.
- Update.Dodge: the contract states the bound it keeps and which fields change, not the step taken for each bullet.
- Collisions.PlayerHits: the contract does not state which bullet is spliced out. `Collisions.PlayerHitsDetects` states when the game ends.

=== FILE: collisions.dfy ===
/** The collision pass of `update` and its threshold effects.

    JavaScript's `forEach` fixes the number of visits when it starts,
    visits indices 0, 1, ... in order, skips an index that is no longer
    below the array's current length, and reads the element that sits at
    the index at visit time. The pass removes elements with `splice` while
    iterating, so after a removal the next element is skipped, and a
    bullet that hits a second enemy removes whatever bullet has moved into
    its index. The functions here follow those rules; the method
    `RunCollisionPass` is the same pass written as loops. */
module Collisions {
  import opened Options
  import opened Geometry
  import opened Entities
  import opened Timers
  import opened GameState

  /** `splice(i, 1)`: removes the element at i, or nothing when i is past
      the end. */
  function RemoveAt<T(==)>(s: seq<T>, i: nat): (r: seq<T>)
    ensures i < |s| ==> |r| == |s| - 1 && multiset(r) + multiset{s[i]} == multiset(s)
    ensures i < |s| ==> forall k :: 0 <= k < |r| ==> r[k] == (if k < i then s[k] else s[k + 1])
    ensures i >= |s| ==> r == s
    ensures multiset(r) <= multiset(s)
    ensures forall x :: x in r ==> x in s
  {
    if i < |s| then
      assert s == s[..i] + [s[i]] + s[i + 1..];
      s[..i] + s[i + 1..]
    else s
  }

  /** The state threaded through the pass: the game, how many monsters
      the pass created (the k-th uses the draw `spawn(k)`), and how many
      enemy hits and monster defeats it counted. */
  datatype Pass = Pass(g: Game, created: nat, hits: nat, defeats: nat)

  /** The pass never touches these parts of the state. */
  predicate Untouched(a: Game, b: Game) {
    && a.playerX == b.playerX
    && a.monsterBullets == b.monsterBullets
    && a.direction == b.direction
    && a.paused == b.paused
    && a.over == b.over
    && a.gameTimer == b.gameTimer
    && a.enemyTimer == b.enemyTimer
  }

  /** How many monsters are on the field: none or one. */
  function Alive(g: Game): nat {
    if g.monster.Some? then 1 else 0
  }

  /** The effects that follow `score++` on an enemy hit: a monster is
      created at score 12 or more when there is none (so also again after
      a defeat), the auto-fire timer is re-armed at 75 ms on every such
      hit, and at score 30 or more the monster-bullet timer is armed at
      four times the fire rate, but only while its handle is null. */
  function Escalate(p: Pass, spawn: nat -> real): (r: Pass)
    requires ValidOracle(spawn)
    ensures r.g.score == p.g.score && r.hits == p.hits && r.defeats == p.defeats
    ensures r.g.bullets == p.g.bullets && r.g.enemies == p.g.enemies && Untouched(p.g, r.g)
    ensures p.g.score < RapidFireScore ==> r == p
    ensures p.g.score >= RapidFireScore ==>
      && r.g.monster.Some?
      && r.g.bulletRate == 75.0
      && Live(r.g.bulletTimer) && r.g.bulletTimer.handle.value.period == 75.0
      && r.g.bulletTimer.strays == p.g.bulletTimer.strays
    ensures p.g.monster.Some? ==> r.g.monster == p.g.monster && r.created == p.created
    ensures p.g.monster.None? && p.g.score >= RapidFireScore ==>
      r.g.monster == Some(MonsterAt(spawn(p.created))) && r.created == p.created + 1
    ensures p.g.score >= MonsterFireScore && p.g.monsterTimer.handle.None? ==>
      Live(r.g.monsterTimer) && r.g.monsterTimer.handle.value.period == 300.0
    ensures p.g.score < MonsterFireScore || p.g.monsterTimer.handle.Some? ==>
      r.g.monsterTimer == p.g.monsterTimer
    ensures r.defeats + Alive(r.g) == p.defeats + Alive(p.g) + r.created - p.created
    ensures Sound(p.g) ==> Sound(r.g)
  {
    var g := p.g;
    var spawnsMonster := g.score >= RapidFireScore && g.monster.None?;
    var g1 := if spawnsMonster then g.(monster := Some(MonsterAt(spawn(p.created)))) else g;
    var g2 :=
      if g1.score >= RapidFireScore then
        var rate := InitialBulletRate / 2.0;
        g1.(bulletRate := rate, bulletTimer := SetInterval(ClearInterval(g1.bulletTimer), rate))
      else g1;
    var g3 :=
      if g2.score >= MonsterFireScore && g2.monsterTimer.handle.None? then
        g2.(monsterTimer := SetInterval(g2.monsterTimer, g2.bulletRate * 4.0))
      else g2;
    p.(g := g3, created := if spawnsMonster then p.created + 1 else p.created)
  }

  /** Bullet i hits enemy j: both are spliced out, the score goes up by
      one and the threshold effects follow. */
  function OnEnemyHit(p: Pass, i: nat, j: nat, spawn: nat -> real): (r: Pass)
    requires ValidOracle(spawn) && j < |p.g.enemies|
    ensures r.g.score == p.g.score + 1 && r.hits == p.hits + 1 && r.defeats == p.defeats
    ensures |r.g.enemies| == |p.g.enemies| - 1
    ensures multiset(r.g.enemies) + multiset{p.g.enemies[j]} == multiset(p.g.enemies)
    ensures multiset(r.g.bullets) <= multiset(p.g.bullets)
    ensures |r.g.bullets| == if i < |p.g.bullets| then |p.g.bullets| - 1 else |p.g.bullets|
    ensures r.g.enemies == RemoveAt(p.g.enemies, j) && r.g.bullets == RemoveAt(p.g.bullets, i)
    ensures Untouched(p.g, r.g) && r.created >= p.created
    ensures r.g.score >= RapidFireScore ==>
      && r.g.monster.Some? && r.g.bulletRate == 75.0
      && Live(r.g.bulletTimer) && r.g.bulletTimer.handle.value.period == 75.0
      && r.g.bulletTimer.strays == p.g.bulletTimer.strays
    ensures r.g.score < RapidFireScore ==>
      && r.g.monster == p.g.monster && r.created == p.created
      && r.g.bulletRate == p.g.bulletRate && r.g.bulletTimer == p.g.bulletTimer
    ensures p.g.monster.Some? ==> r.g.monster == p.g.monster && r.created == p.created
    ensures p.g.monster.None? && r.g.score >= RapidFireScore ==>
      r.g.monster.value.health == MonsterHealth && r.created == p.created + 1
    ensures r.g.score >= MonsterFireScore && p.g.monsterTimer.handle.None? ==>
      Live(r.g.monsterTimer) && r.g.monsterTimer.handle.value.period == 300.0
    ensures r.g.score < MonsterFireScore || p.g.monsterTimer.handle.Some? ==>
      r.g.monsterTimer == p.g.monsterTimer
    ensures r.defeats + Alive(r.g) == p.defeats + Alive(p.g) + r.created - p.created
    ensures Sound(p.g) ==> Sound(r.g)
  {
    var g := p.g.(enemies := RemoveAt(p.g.enemies, j),
                  bullets := RemoveAt(p.g.bullets, i),
                  score := p.g.score + 1);
    Escalate(p.(g := g, hits := p.hits + 1), spawn)
  }

  /** The inner `enemies.forEach` for bullet i (captured as `bullet`),
      visiting j, ..., n - 1. */
  function EnemyLoop(p: Pass, bullet: Rect, i: nat, j: nat, n: nat, spawn: nat -> real): (r: Pass)
    requires ValidOracle(spawn)
    decreases n - j
    ensures r.hits >= p.hits && r.defeats == p.defeats && r.created >= p.created
    ensures r.g.score == p.g.score + (r.hits - p.hits)
    ensures |r.g.enemies| + (r.hits - p.hits) == |p.g.enemies|
    ensures multiset(r.g.enemies) <= multiset(p.g.enemies)
    ensures multiset(r.g.bullets) <= multiset(p.g.bullets)
    ensures Untouched(p.g, r.g)
    ensures r.hits == p.hits ==> r == p
    ensures r.hits > p.hits && r.g.score >= RapidFireScore ==>
      r.g.monster.Some? && r.g.bulletRate == 75.0 && Live(r.g.bulletTimer)
    ensures r.hits > p.hits && r.g.score >= MonsterFireScore ==> r.g.monsterTimer.handle.Some?
    ensures r.defeats + Alive(r.g) == p.defeats + Alive(p.g) + r.created - p.created
    ensures Sound(p.g) ==> Sound(r.g)
  {
    if n <= j then p
    else if j < |p.g.enemies| && Overlaps(bullet, p.g.enemies[j]) then
      EnemyLoop(OnEnemyHit(p, i, j, spawn), bullet, i, j + 1, n, spawn)
    else
      EnemyLoop(p, bullet, i, j + 1, n, spawn)
  }

  /** A hit on the monster: health drops by one; at zero the monster is
      gone, the score gains 5 and the monster-bullet timer is cleared and
      its handle nulled. */
  function StrikeMonster(p: Pass): (r: Pass)
    requires p.g.monster.Some?
    ensures r.hits == p.hits && r.created == p.created
    ensures r.g.bullets == p.g.bullets && r.g.enemies == p.g.enemies && Untouched(p.g, r.g)
    ensures r.g.bulletRate == p.g.bulletRate && r.g.bulletTimer == p.g.bulletTimer
    ensures r.g.monster.Some? <==> p.g.monster.value.health > 1
    ensures r.g.monster.Some? ==>
      && r.g.monster.value.health == p.g.monster.value.health - 1
      && r.g.monster.value.box == p.g.monster.value.box
      && r.g.monster.value.speed == p.g.monster.value.speed
      && r.g.score == p.g.score && r.defeats == p.defeats
      && r.g.monsterTimer == p.g.monsterTimer
    ensures r.g.monster.None? ==>
      && r.g.score == p.g.score + 5 && r.defeats == p.defeats + 1
      && r.g.monsterTimer.handle.None? && Firing(r.g.monsterTimer) == p.g.monsterTimer.strays
    ensures r.defeats + Alive(r.g) == p.defeats + Alive(p.g)
    ensures Sound(p.g) ==> Sound(r.g)
  {
    var m := p.g.monster.value;
    var hurt := m.(health := m.health - 1);
    if hurt.health <= 0 then
      p.(g := p.g.(monster := None, score := p.g.score + 5,
                   monsterTimer := Forget(ClearInterval(p.g.monsterTimer))),
         defeats := p.defeats + 1)
    else
      p.(g := p.g.(monster := Some(hurt)))
  }

  /** The monster test for bullet i after its enemy loop: the bullet
      variable still holds bullet i even when it was already spliced out,
      and the splice removes whatever now sits at index i. */
  function MonsterCheck(p: Pass, bullet: Rect, i: nat): (r: Pass)
    ensures r.hits == p.hits && r.created == p.created
    ensures r.defeats == p.defeats || r.defeats == p.defeats + 1
    ensures r.g.score == p.g.score + 5 * (r.defeats - p.defeats)
    ensures multiset(r.g.bullets) <= multiset(p.g.bullets)
    ensures r.g.enemies == p.g.enemies && Untouched(p.g, r.g)
    ensures r.g.bulletRate == p.g.bulletRate && r.g.bulletTimer == p.g.bulletTimer
    ensures |r.g.bullets| <= |p.g.bullets|
    ensures !(p.g.monster.Some? && Overlaps(bullet, p.g.monster.value.box)) ==> r == p
    ensures p.g.monster.Some? && Overlaps(bullet, p.g.monster.value.box) ==>
      && r.g.bullets == RemoveAt(p.g.bullets, i)
      && (r.g.monster.Some? <==> p.g.monster.value.health > 1)
      && (r.g.monster.Some? ==>
            && r.g.monster.value.health == p.g.monster.value.health - 1
            && r.g.monster.value.box == p.g.monster.value.box
            && r.g.monster.value.speed == p.g.monster.value.speed
            && r.defeats == p.defeats && r.g.score == p.g.score
            && r.g.monsterTimer == p.g.monsterTimer)
      && (r.g.monster.None? ==> r.defeats == p.defeats + 1 && r.g.monsterTimer.handle.None?)
    ensures r.defeats + Alive(r.g) == p.defeats + Alive(p.g)
    ensures Sound(p.g) ==> Sound(r.g)
  {
    if p.g.monster.Some? && Overlaps(bullet, p.g.monster.value.box) then
      StrikeMonster(p.(g := p.g.(bullets := RemoveAt(p.g.bullets, i))))
    else p
  }

  /** The outer `bullets.forEach`, visiting i, ..., n - 1. */
  function BulletLoop(p: Pass, i: nat, n: nat, spawn: nat -> real): (r: Pass)
    requires ValidOracle(spawn)
    decreases n - i
    ensures r.hits >= p.hits && r.defeats >= p.defeats && r.created >= p.created
    ensures r.g.score == p.g.score + (r.hits - p.hits) + 5 * (r.defeats - p.defeats)
    ensures |r.g.enemies| + (r.hits - p.hits) == |p.g.enemies|
    ensures multiset(r.g.enemies) <= multiset(p.g.enemies)
    ensures multiset(r.g.bullets) <= multiset(p.g.bullets)
    ensures r.defeats + Alive(r.g) == p.defeats + Alive(p.g) + r.created - p.created
    ensures Untouched(p.g, r.g)
    ensures Sound(p.g) ==> Sound(r.g)
  {
    if n <= i then p
    else if i < |p.g.bullets| then
      var bullet := p.g.bullets[i];
      var q := EnemyLoop(p, bullet, i, 0, |p.g.enemies|, spawn);
      BulletLoop(MonsterCheck(q, bullet, i), i + 1, n, spawn)
    else
      BulletLoop(p, i + 1, n, spawn)
  }

  /** The whole collision pass of one frame. The score rises by one per
      enemy hit (each removing one enemy) and by five per monster defeat,
      and nothing is added to either collection. Every enemy removed
      overlaps some bullet, and every defeat is of a monster that was
      there at the start or was created during the pass. */
  function CollisionPass(g: Game, spawn: nat -> real): (r: Pass)
    requires ValidOracle(spawn)
    ensures r.g.score == g.score + r.hits + 5 * r.defeats
    ensures |r.g.enemies| + r.hits == |g.enemies|
    ensures multiset(r.g.enemies) <= multiset(g.enemies)
    ensures multiset(r.g.bullets) <= multiset(g.bullets)
    ensures r.defeats + Alive(r.g) == Alive(g) + r.created
    ensures Untouched(g, r.g)
    ensures Sound(g) ==> Sound(r.g)
  {
    BulletLoop(Pass(g, 0, 0, 0), 0, |g.bullets|, spawn)
  }

  /** The inner `enemies.forEach` for bullet i written as a loop over the
      enemy index, applying the same hit step. */
  method RunEnemyLoop(p0: Pass, bullet: Rect, i: nat, spawn: nat -> real) returns (p: Pass)
    requires ValidOracle(spawn)
    ensures p == EnemyLoop(p0, bullet, i, 0, |p0.g.enemies|, spawn)
    ensures p.g.score == p0.g.score + (p.hits - p0.hits)
  {
    p := p0;
    var m := |p0.g.enemies|;
    var j := 0;
    while j < m
      invariant j <= m
      invariant EnemyLoop(p, bullet, i, j, m, spawn) == EnemyLoop(p0, bullet, i, 0, m, spawn)
    {
      if j < |p.g.enemies| && Overlaps(bullet, p.g.enemies[j]) {
        p := OnEnemyHit(p, i, j, spawn);
      }
      j := j + 1;
    }
  }

  /** The collision pass written as two nested loops over the bullet and
      enemy indices, applying the same hit steps. */
  method RunCollisionPass(g: Game, spawn: nat -> real) returns (p: Pass)
    requires ValidOracle(spawn)
    ensures p == CollisionPass(g, spawn)
    ensures p.g.score == g.score + p.hits + 5 * p.defeats
    ensures |p.g.enemies| + p.hits == |g.enemies|
  {
    p := Pass(g, 0, 0, 0);
    var n := |g.bullets|;
    var i := 0;
    while i < n
      invariant i <= n
      invariant BulletLoop(p, i, n, spawn) == CollisionPass(g, spawn)
      invariant p.g.score == g.score + p.hits + 5 * p.defeats
      invariant |p.g.enemies| + p.hits == |g.enemies|
    {
      if i < |p.g.bullets| {
        var bullet := p.g.bullets[i];
        p := RunEnemyLoop(p, bullet, i, spawn);
        p := MonsterCheck(p, bullet, i);
      }
      i := i + 1;
    }
  }

  /** An enemy pass for a bullet that overlaps no enemy changes nothing. */
  lemma {:induction false} EnemyLoopMisses(p: Pass, bullet: Rect, i: nat, j: nat, n: nat, spawn: nat -> real)
    requires ValidOracle(spawn)
    requires forall e :: e in p.g.enemies ==> !Overlaps(bullet, e)
    decreases n - j
    ensures EnemyLoop(p, bullet, i, j, n, spawn) == p
  {
    if j < n {
      EnemyLoopMisses(p, bullet, i, j + 1, n, spawn);
    }
  }

  /** A bullet pass in which no bullet overlaps an enemy or the monster
      changes nothing. */
  lemma {:induction false} BulletLoopMisses(p: Pass, i: nat, n: nat, spawn: nat -> real)
    requires ValidOracle(spawn)
    requires forall b, e :: b in p.g.bullets && e in p.g.enemies ==> !Overlaps(b, e)
    requires p.g.monster.Some? ==> forall b :: b in p.g.bullets ==> !Overlaps(b, p.g.monster.value.box)
    decreases n - i
    ensures BulletLoop(p, i, n, spawn) == p
  {
    if i < n {
      if i < |p.g.bullets| {
        var bullet := p.g.bullets[i];
        EnemyLoopMisses(p, bullet, i, 0, |p.g.enemies|, spawn);
        assert MonsterCheck(p, bullet, i) == p;
      }
      BulletLoopMisses(p, i + 1, n, spawn);
    }
  }

  /** A frame in which nothing collides: the collision pass leaves the
      game as it is. */
  lemma QuietPass(g: Game, spawn: nat -> real)
    requires ValidOracle(spawn)
    requires forall b, e :: b in g.bullets && e in g.enemies ==> !Overlaps(b, e)
    requires g.monster.Some? ==> forall b :: b in g.bullets ==> !Overlaps(b, g.monster.value.box)
    ensures CollisionPass(g, spawn) == Pass(g, 0, 0, 0)
  {
    BulletLoopMisses(Pass(g, 0, 0, 0), 0, |g.bullets|, spawn);
  }

  /** Bullet b strikes something in g: an enemy, or the monster. */
  predicate Strikes(g: Game, b: Rect) {
    || (exists e :: e in g.enemies && Overlaps(b, e))
    || (g.monster.Some? && Overlaps(b, g.monster.value.box))
  }

  /** An enemy loop removes only enemies that its bullet overlaps. */
  lemma {:induction false} EnemyLoopRemovesOverlapping(p: Pass, bullet: Rect, i: nat, j: nat, n: nat,
                                                       spawn: nat -> real, e: Rect)
    requires ValidOracle(spawn)
    decreases n - j
    ensures multiset(EnemyLoop(p, bullet, i, j, n, spawn).g.enemies)[e] < multiset(p.g.enemies)[e] ==>
      Overlaps(bullet, e)
  {
    if j < n {
      if j < |p.g.enemies| && Overlaps(bullet, p.g.enemies[j]) {
        EnemyLoopRemovesOverlapping(OnEnemyHit(p, i, j, spawn), bullet, i, j + 1, n, spawn, e);
      } else {
        EnemyLoopRemovesOverlapping(p, bullet, i, j + 1, n, spawn, e);
      }
    }
  }

  /** An enemy loop that reaches an enemy its bullet overlaps scores. */
  lemma {:induction false} EnemyLoopFinds(p: Pass, bullet: Rect, i: nat, j: nat, n: nat,
                                          spawn: nat -> real, t: nat)
    requires ValidOracle(spawn)
    requires j <= t < n && t < |p.g.enemies| && Overlaps(bullet, p.g.enemies[t])
    decreases t - j
    ensures EnemyLoop(p, bullet, i, j, n, spawn).hits > p.hits
  {
    if !Overlaps(bullet, p.g.enemies[j]) {
      EnemyLoopFinds(p, bullet, i, j + 1, n, spawn, t);
    }
  }

  /** An enemy loop for a bullet still in the array that scores also
      splices a bullet out. */
  lemma {:induction false} EnemyLoopSpends(p: Pass, bullet: Rect, i: nat, j: nat, n: nat, spawn: nat -> real)
    requires ValidOracle(spawn) && i < |p.g.bullets|
    decreases n - j
    ensures var r := EnemyLoop(p, bullet, i, j, n, spawn);
      r.hits > p.hits ==> |r.g.bullets| < |p.g.bullets|
  {
    if j < n {
      if j < |p.g.enemies| && Overlaps(bullet, p.g.enemies[j]) {
        var q := OnEnemyHit(p, i, j, spawn);
        assert EnemyLoop(p, bullet, i, j, n, spawn) == EnemyLoop(q, bullet, i, j + 1, n, spawn);
        assert |q.g.bullets| < |p.g.bullets|;
        EnemyLoopShrinks(q, bullet, i, j + 1, n, spawn);
      } else {
        assert EnemyLoop(p, bullet, i, j, n, spawn) == EnemyLoop(p, bullet, i, j + 1, n, spawn);
        EnemyLoopSpends(p, bullet, i, j + 1, n, spawn);
      }
    }
  }

  /** A sub-multiset of a sequence's elements is no longer than it. */
  lemma {:induction false} NoLonger<T>(later: seq<T>, earlier: seq<T>)
    requires multiset(later) <= multiset(earlier)
    ensures |later| <= |earlier|
    decreases |later|
  {
    if |later| > 0 {
      var x := later[0];
      assert multiset(earlier)[x] > 0;
      var k :| 0 <= k < |earlier| && earlier[k] == x;
      var rest := earlier[..k] + earlier[k + 1..];
      assert earlier == earlier[..k] + [x] + earlier[k + 1..];
      assert multiset(earlier) == multiset(rest) + multiset{x};
      assert later == [x] + later[1..];
      assert multiset(later) == multiset(later[1..]) + multiset{x};
      assert multiset(later[1..]) <= multiset(rest) by {
        forall y
          ensures multiset(later[1..])[y] <= multiset(rest)[y]
        {
          assert multiset(later)[y] <= multiset(earlier)[y];
        }
      }
      NoLonger(later[1..], rest);
    }
  }

  /** An enemy loop never adds a bullet. */
  lemma EnemyLoopShrinks(p: Pass, bullet: Rect, i: nat, j: nat, n: nat, spawn: nat -> real)
    requires ValidOracle(spawn)
    ensures |EnemyLoop(p, bullet, i, j, n, spawn).g.bullets| <= |p.g.bullets|
  {
    NoLonger(EnemyLoop(p, bullet, i, j, n, spawn).g.bullets, p.g.bullets);
  }

  /** One visit of the bullet loop: bullet i's enemy loop, then its
      monster test. */
  lemma BulletVisit(p: Pass, i: nat, n: nat, spawn: nat -> real)
    requires ValidOracle(spawn) && i < n && i < |p.g.bullets|
    ensures var bullet := p.g.bullets[i];
      BulletLoop(p, i, n, spawn) ==
        BulletLoop(MonsterCheck(EnemyLoop(p, bullet, i, 0, |p.g.enemies|, spawn), bullet, i), i + 1, n, spawn)
  {
  }

  /** A bullet that a sub-multiset of the bullets holds was there before. */
  lemma StillThere(b: Rect, later: seq<Rect>, earlier: seq<Rect>)
    requires multiset(later) <= multiset(earlier) && b in later
    ensures b in earlier
  {
    assert multiset(later)[b] > 0;
  }

  /** A bullet loop removes only enemies that some bullet present at its
      start overlaps. */
  lemma {:induction false} BulletLoopRemovesOverlapping(p: Pass, i: nat, n: nat, spawn: nat -> real, e: Rect)
    requires ValidOracle(spawn)
    decreases n - i
    ensures multiset(BulletLoop(p, i, n, spawn).g.enemies)[e] < multiset(p.g.enemies)[e] ==>
      exists b :: b in p.g.bullets && Overlaps(b, e)
  {
    if i < n {
      if i < |p.g.bullets| {
        var bullet := p.g.bullets[i];
        var q := EnemyLoop(p, bullet, i, 0, |p.g.enemies|, spawn);
        var m := MonsterCheck(q, bullet, i);
        BulletVisit(p, i, n, spawn);
        EnemyLoopRemovesOverlapping(p, bullet, i, 0, |p.g.enemies|, spawn, e);
        BulletLoopRemovesOverlapping(m, i + 1, n, spawn, e);
        if multiset(BulletLoop(m, i + 1, n, spawn).g.enemies)[e] < multiset(p.g.enemies)[e] {
          if multiset(q.g.enemies)[e] < multiset(p.g.enemies)[e] {
            assert bullet in p.g.bullets && Overlaps(bullet, e);
          } else {
            var b :| b in m.g.bullets && Overlaps(b, e);
            StillThere(b, m.g.bullets, p.g.bullets);
          }
        }
      } else {
        BulletLoopRemovesOverlapping(p, i + 1, n, spawn, e);
      }
    }
  }

  /** A bullet loop never adds a bullet. */
  lemma BulletLoopShrinks(p: Pass, i: nat, n: nat, spawn: nat -> real)
    requires ValidOracle(spawn)
    ensures |BulletLoop(p, i, n, spawn).g.bullets| <= |p.g.bullets|
  {
    NoLonger(BulletLoop(p, i, n, spawn).g.bullets, p.g.bullets);
  }

  /** A visit to a bullet that strikes nothing changes nothing. */
  lemma IdleVisit(p: Pass, i: nat, n: nat, spawn: nat -> real)
    requires ValidOracle(spawn) && i < n && i < |p.g.bullets| && !Strikes(p.g, p.g.bullets[i])
    ensures BulletLoop(p, i, n, spawn) == BulletLoop(p, i + 1, n, spawn)
  {
    BulletVisit(p, i, n, spawn);
    EnemyLoopMisses(p, p.g.bullets[i], i, 0, |p.g.enemies|, spawn);
  }

  /** A visit to a bullet that overlaps an enemy: its enemy loop scores
      and splices a bullet out. */
  lemma EnemyVisit(p: Pass, i: nat, spawn: nat -> real, t: nat)
    requires ValidOracle(spawn) && i < |p.g.bullets|
    requires t < |p.g.enemies| && Overlaps(p.g.bullets[i], p.g.enemies[t])
    ensures |EnemyLoop(p, p.g.bullets[i], i, 0, |p.g.enemies|, spawn).g.bullets| < |p.g.bullets|
  {
    EnemyLoopFinds(p, p.g.bullets[i], i, 0, |p.g.enemies|, spawn, t);
    EnemyLoopSpends(p, p.g.bullets[i], i, 0, |p.g.enemies|, spawn);
  }

  /** Bullet i's enemy loop and monster test splice a bullet out when
      it strikes something. */
  lemma VisitSpends(p: Pass, i: nat, spawn: nat -> real)
    requires ValidOracle(spawn) && i < |p.g.bullets| && Strikes(p.g, p.g.bullets[i])
    ensures var bullet := p.g.bullets[i];
      |MonsterCheck(EnemyLoop(p, bullet, i, 0, |p.g.enemies|, spawn), bullet, i).g.bullets| < |p.g.bullets|
  {
    var bullet := p.g.bullets[i];
    if exists e :: e in p.g.enemies && Overlaps(bullet, e) {
      var e :| e in p.g.enemies && Overlaps(bullet, e);
      var t :| 0 <= t < |p.g.enemies| && p.g.enemies[t] == e;
      EnemyVisit(p, i, spawn, t);
    } else {
      EnemyLoopMisses(p, bullet, i, 0, |p.g.enemies|, spawn);
    }
  }

  /** A visit to a bullet that strikes something splices a bullet out. */
  lemma BusyVisit(p: Pass, i: nat, n: nat, spawn: nat -> real)
    requires ValidOracle(spawn) && i < n && i < |p.g.bullets| && Strikes(p.g, p.g.bullets[i])
    ensures |BulletLoop(p, i, n, spawn).g.bullets| < |p.g.bullets|
  {
    var bullet := p.g.bullets[i];
    var m := MonsterCheck(EnemyLoop(p, bullet, i, 0, |p.g.enemies|, spawn), bullet, i);
    BulletVisit(p, i, n, spawn);
    VisitSpends(p, i, spawn);
    var rest := BulletLoop(m, i + 1, n, spawn);
    BulletLoopShrinks(m, i + 1, n, spawn);
    assert |rest.g.bullets| <= |m.g.bullets| < |p.g.bullets|;
  }

  /** A bullet loop that reaches a bullet striking something splices a
      bullet out: the bullets before it struck nothing, so it meets the
      enemies and the monster as they were at the start. */
  lemma {:induction false} BulletLoopBusy(p: Pass, i: nat, n: nat, spawn: nat -> real, k: nat)
    requires ValidOracle(spawn)
    requires i <= k < n && k < |p.g.bullets| && Strikes(p.g, p.g.bullets[k])
    decreases k - i
    ensures |BulletLoop(p, i, n, spawn).g.bullets| < |p.g.bullets|
  {
    if Strikes(p.g, p.g.bullets[i]) {
      BusyVisit(p, i, n, spawn);
    } else {
      assert i + 1 <= k;
      IdleVisit(p, i, n, spawn);
      var rest := BulletLoop(p, i + 1, n, spawn);
      BulletLoopBusy(p, i + 1, n, spawn, k);
      assert |rest.g.bullets| < |p.g.bullets|;
    }
  }

  /** The collision pass removes only enemies that some bullet overlaps. */
  lemma CollisionPassRemovesOverlapping(g: Game, spawn: nat -> real)
    requires ValidOracle(spawn)
    ensures var r := CollisionPass(g, spawn);
      forall e :: multiset(r.g.enemies)[e] < multiset(g.enemies)[e] ==>
        exists b :: b in g.bullets && Overlaps(b, e)
  {
    forall e {
      BulletLoopRemovesOverlapping(Pass(g, 0, 0, 0), 0, |g.bullets|, spawn, e);
    }
  }

  /** The pass leaves the game unchanged exactly when no bullet strikes
      anything; otherwise it splices out at least one bullet. */
  lemma PassIsQuietIff(g: Game, spawn: nat -> real)
    requires ValidOracle(spawn)
    ensures (exists b :: b in g.bullets && Strikes(g, b)) ==>
      |CollisionPass(g, spawn).g.bullets| < |g.bullets|
    ensures CollisionPass(g, spawn).g == g <==> forall b :: b in g.bullets ==> !Strikes(g, b)
  {
    if exists b :: b in g.bullets && Strikes(g, b) {
      var b :| b in g.bullets && Strikes(g, b);
      var k :| 0 <= k < |g.bullets| && g.bullets[k] == b;
      BulletLoopBusy(Pass(g, 0, 0, 0), 0, |g.bullets|, spawn, k);
    } else {
      QuietPass(g, spawn);
    }
  }

  /** A monster bullet at index k hits the player: it is spliced out and
      the game is over. */
  function StrikePlayer(g: Game, k: nat): (r: Game)
    ensures r.over && Stopped(r) && r.paused == g.paused
    ensures r.monsterBullets == RemoveAt(g.monsterBullets, k)
    ensures SameWorld(g, r.(monsterBullets := g.monsterBullets))
    ensures multiset(r.monsterBullets) <= multiset(g.monsterBullets)
    ensures Sound(g) ==> Sound(r)
  {
    var h := g.(monsterBullets := RemoveAt(g.monsterBullets, k));
    assert Sound(g) ==> Sound(h);
    Halt(h)
  }

  /** The monster-bullet `forEach` against the player, visiting k, ...,
      n - 1: a hit splices the bullet out and ends the game. */
  function PlayerHits(g: Game, k: nat, n: nat): (r: Game)
    decreases n - k
    ensures g.over ==> r.over
    ensures !r.over ==> r == g
    ensures r != g ==> r.over && Stopped(r)
    ensures SameWorld(g, r.(monsterBullets := g.monsterBullets)) && r.paused == g.paused
    ensures multiset(r.monsterBullets) <= multiset(g.monsterBullets)
    ensures Sound(g) ==> Sound(r)
  {
    if n <= k then g
    else if k < |g.monsterBullets| && Overlaps(g.monsterBullets[k], PlayerBox(g.playerX)) then
      PlayerHits(StrikePlayer(g, k), k + 1, n)
    else
      PlayerHits(g, k + 1, n)
  }

  /** Some monster bullet overlaps the player. */
  predicate PlayerStruck(g: Game) {
    exists k :: 0 <= k < |g.monsterBullets| && Overlaps(g.monsterBullets[k], PlayerBox(g.playerX))
  }

  /** The monster-bullet pass ends the game exactly when some monster
      bullet overlaps the player: a bullet skipped after a splice is only
      ever skipped once the game is already over. */
  lemma {:induction false} PlayerHitsDetects(g: Game, k: nat)
    requires k <= |g.monsterBullets|
    ensures PlayerHits(g, k, |g.monsterBullets|).over <==>
      g.over || exists t :: k <= t < |g.monsterBullets| && Overlaps(g.monsterBullets[t], PlayerBox(g.playerX))
    decreases |g.monsterBullets| - k
  {
    if k < |g.monsterBullets| && !Overlaps(g.monsterBullets[k], PlayerBox(g.playerX)) {
      PlayerHitsDetects(g, k + 1);
    }
  }
}

=== FILE: controls.dfy ===
/** The game-state machine (`startGame`, `pauseGame`, `resumeGame`,
    `exitGame` and the Play and Pause/Resume buttons), the keyboard
    handlers, and the three timer callbacks that add entities. */
module Controls {
  import opened Options
  import opened Geometry
  import opened Entities
  import opened Timers
  import opened GameState

  /** `startGame`: unless the game is over or paused, registers the frame,
      enemy and auto-fire intervals. A handle that still fires is simply
      overwritten, so calling it twice leaves duplicate timers. */
  function StartGame(g: Game): (r: Game)
    ensures g.over || g.paused ==> r == g
    ensures !g.over && !g.paused ==>
      && Live(r.gameTimer) && r.gameTimer.handle.value.period == FramePeriod
      && Live(r.enemyTimer) && r.enemyTimer.handle.value.period == EnemyPeriod
      && Live(r.bulletTimer) && r.bulletTimer.handle.value.period == g.bulletRate
      && Firing(r.gameTimer) == Firing(g.gameTimer) + 1
      && Firing(r.enemyTimer) == Firing(g.enemyTimer) + 1
      && Firing(r.bulletTimer) == Firing(g.bulletTimer) + 1
    ensures SameWorld(g, r) && r.paused == g.paused && r.over == g.over
    ensures r.monsterTimer == g.monsterTimer
    ensures Inv(g) ==> Inv(r)
  {
    if !g.over && !g.paused then
      g.(gameTimer := SetInterval(g.gameTimer, FramePeriod),
         enemyTimer := SetInterval(g.enemyTimer, EnemyPeriod),
         bulletTimer := SetInterval(g.bulletTimer, g.bulletRate))
    else g
  }

  /** `pauseGame`: stops every handled timer and sets `isPaused`, whatever
      the current flags; score and entities are untouched and the
      monster-bullet handle keeps its value. */
  function PauseGame(g: Game): (r: Game)
    ensures r.paused && r.over == g.over && Stopped(r) && SameWorld(g, r)
    ensures r.monsterTimer.handle.Some? == g.monsterTimer.handle.Some?
    ensures Firing(r.gameTimer) == g.gameTimer.strays && Firing(r.enemyTimer) == g.enemyTimer.strays
    ensures Firing(r.bulletTimer) == g.bulletTimer.strays && Firing(r.monsterTimer) == g.monsterTimer.strays
    ensures Sound(g) ==> Inv(r)
  {
    StopAll(g).(paused := true)
  }

  /** `resumeGame`: only a paused game that is not over resumes; it then
      restarts the frame, enemy and auto-fire timers but not the monster's. */
  function ResumeGame(g: Game): (r: Game)
    ensures !(g.paused && !g.over) ==> r == g
    ensures g.paused && !g.over ==>
      && !r.paused && !r.over
      && Live(r.gameTimer) && Live(r.enemyTimer) && Live(r.bulletTimer)
      && r.bulletTimer.handle.value.period == g.bulletRate
    ensures SameWorld(g, r) && r.monsterTimer == g.monsterTimer
    ensures Inv(g) ==> Inv(r)
  {
    if g.paused && !g.over then StartGame(g.(paused := false)) else g
  }

  /** `exitGame`: stops every handled timer and sets `isGameOver`; it is
      the same state change as a game over. */
  function ExitGame(g: Game): (r: Game)
    ensures r.over && r.paused == g.paused && Stopped(r) && SameWorld(g, r)
    ensures r.monsterTimer.handle.Some? == g.monsterTimer.handle.Some?
    ensures Sound(g) ==> Inv(r)
  {
    Halt(g)
  }

  /** The Play button: a finished (or exited) game is reset first; then
      `startGame` runs, which does nothing while the game is paused. The
      monster's wander direction and the monster-bullet handle survive the
      reset. */
  function PlayClicked(g: Game): (r: Game)
    ensures g.over ==>
      && r.score == 0 && r.bullets == [] && r.monsterBullets == [] && r.enemies == []
      && r.monster.None? && r.playerX == PlayerStartX && r.bulletRate == InitialBulletRate
      && r.direction == g.direction && r.monsterTimer == g.monsterTimer
    ensures !g.over ==> SameWorld(g, r)
    ensures !r.over && r.paused == g.paused
    ensures !g.paused ==> Live(r.gameTimer) && Live(r.enemyTimer) && Live(r.bulletTimer)
    ensures Inv(g) ==> Inv(r)
  {
    var h :=
      if g.over then
        g.(over := false, score := 0, bullets := [], monsterBullets := [], enemies := [],
           monster := None, playerX := PlayerStartX, bulletRate := InitialBulletRate)
      else g;
    StartGame(h)
  }

  /** The Pause/Resume button: resume when paused, pause otherwise. */
  function PauseResumeClicked(g: Game): (r: Game)
    ensures !g.paused ==> r.paused && Stopped(r)
    ensures g.paused && g.over ==> r == g
    ensures g.paused && !g.over ==> !r.paused && Live(r.gameTimer) && Live(r.enemyTimer) && Live(r.bulletTimer)
    ensures SameWorld(g, r) && r.over == g.over
    ensures Inv(g) ==> Inv(r)
  {
    if g.paused then ResumeGame(g) else PauseGame(g)
  }

  /** `handleKeyDown`: moves the player whatever the flags; nothing else
      changes. */
  function KeyDown(g: Game, key: Key): (r: Game)
    ensures r == g.(playerX := r.playerX)
    ensures r.playerX == MovePlayer(g.playerX, key)
    ensures 0.0 <= g.playerX <= PlayerMaxX ==> 0.0 <= r.playerX <= PlayerMaxX
    ensures Inv(g) ==> Inv(r)
  {
    g.(playerX := MovePlayer(g.playerX, key))
  }

  /** `shootBullet`, the auto-fire callback: one shot from the player. */
  function ShootBullet(g: Game): (r: Game)
    ensures r.bullets == g.bullets + [ShotFrom(g.playerX)]
    ensures r == g.(bullets := r.bullets)
    ensures Inv(g) ==> Inv(r)
  {
    g.(bullets := g.bullets + [ShotFrom(g.playerX)])
  }

  /** `handleKeyUp`: releasing Space fires unless the game is over; it
      fires while paused too. */
  function KeyUp(g: Game, key: Key): (r: Game)
    ensures key.Space? && !g.over ==> r.bullets == g.bullets + [ShotFrom(g.playerX)] && r == g.(bullets := r.bullets)
    ensures !key.Space? || g.over ==> r == g
    ensures Inv(g) ==> Inv(r)
  {
    if key.Space? && !g.over then ShootBullet(g) else g
  }

  /** `createEnemy`, the enemy-timer callback, with its draw r. */
  function CreateEnemy(g: Game, r: real): (g': Game)
    requires IsDraw(r)
    ensures |g'.enemies| == |g.enemies| + 1 && g'.enemies[..|g.enemies|] == g.enemies
    ensures g'.enemies[|g.enemies|] == EnemyAt(r)
    ensures var e := g'.enemies[|g.enemies|]; e.y == 0.0 && 0.0 <= e.x && e.x + e.w < CanvasWidth && IsEnemy(e)
    ensures g' == g.(enemies := g'.enemies)
    ensures Inv(g) ==> Inv(g')
  {
    g.(enemies := g.enemies + [EnemyAt(r)])
  }

  /** `shootMonsterBullet`, the monster-timer callback: fires only while a
      monster exists. */
  function ShootMonsterBullet(g: Game): (r: Game)
    ensures g.monster.None? ==> r == g
    ensures g.monster.Some? ==> r.monsterBullets == g.monsterBullets + [MonsterShot(g.monster.value)]
    ensures r == g.(monsterBullets := r.monsterBullets)
    ensures Inv(g) ==> Inv(r)
  {
    match g.monster
    case None => g
    case Some(m) => g.(monsterBullets := g.monsterBullets + [MonsterShot(m)])
  }

  /** Pause then Resume keeps score, entities and rates, and restarts the
      three main timers; the monster's timer stays stopped with its handle
      still set, so it is not re-armed until the monster is defeated. */
  lemma PauseThenResume(g: Game)
    requires !g.paused && !g.over
    ensures var r := ResumeGame(PauseGame(g));
      && SameWorld(g, r) && !r.paused && !r.over
      && Live(r.gameTimer) && Live(r.enemyTimer) && Live(r.bulletTimer)
      && !Live(r.monsterTimer) && r.monsterTimer.handle.Some? == g.monsterTimer.handle.Some?
  {
  }

  /** Exit only sets `isGameOver`, so Play afterwards starts a fresh game. */
  lemma PlayAfterExit(g: Game)
    requires !g.paused
    ensures var r := PlayClicked(ExitGame(g));
      && !r.over && !r.paused && r.score == 0 && r.enemies == [] && r.bullets == []
      && Live(r.gameTimer) && Live(r.enemyTimer) && Live(r.bulletTimer)
  {
  }

  /** Pressing Play twice stacks the timers: after a pause one frame
      interval of each doubled kind still fires. */
  lemma DoublePlayLeavesStrays(g: Game)
    requires !g.paused && !g.over
    ensures var r := PauseGame(PlayClicked(PlayClicked(g)));
      && r.paused
      && Firing(r.gameTimer) >= 1 && Firing(r.enemyTimer) >= 1 && Firing(r.bulletTimer) >= 1
  {
  }

  /** Pausing a finished game leaves it paused, so Play resets it but
      starts no timer until Pause/Resume is pressed. */
  lemma PlayWhilePausedAfterGameOver(g: Game)
    requires g.over
    ensures var r := PlayClicked(PauseGame(g));
      && !r.over && r.paused && r.score == 0 && Stopped(r)
  {
  }
}

=== FILE: entities.dfy ===
/** The game's constants and its entity records: the player's horizontal
    movement, the rectangles the spawners build, and the prune-then-move
    step applied to each collection every frame. */
module Entities {
  import opened Geometry

  const CanvasWidth: real := 800.0
  const CanvasHeight: real := 600.0
  const PlayerWidth: real := 65.0
  const PlayerHeight: real := 55.0
  const PlayerSpeed: real := 15.0
  const BulletSpeed: real := 6.0
  const EnemySpeed: real := 2.0
  const MonsterSpeed: real := 1.0
  /** Milliseconds between automatic shots at the start of a game. */
  const InitialBulletRate: real := 150.0
  const ShotWidth: real := 5.0
  const ShotHeight: real := 10.0
  const EnemySize: real := 40.0
  const MonsterWidth: real := 80.0
  const MonsterHeight: real := 60.0
  const MonsterHealth: int := 5

  const PlayerStartX: real := CanvasWidth / 2.0 - PlayerWidth / 2.0
  /** The player's row; the game only ever assigns it this value. */
  const PlayerY: real := CanvasHeight - PlayerHeight - 10.0
  const PlayerMaxX: real := CanvasWidth - PlayerWidth

  /** Score thresholds: faster fire and the monster, monster fire, dodging. */
  const RapidFireScore: int := 12
  const MonsterFireScore: int := 30
  const DodgeScore: int := 50

  /** The boss: its rectangle, its speed and its remaining health. */
  datatype Monster = Monster(box: Rect, speed: real, health: int)

  datatype Key = ArrowLeft | ArrowRight | Space | OtherKey

  /** A value `Math.random()` can return. */
  predicate IsDraw(r: real) {
    0.0 <= r < 1.0
  }

  /** A stream of `Math.random()` values. */
  ghost predicate ValidOracle(spawn: nat -> real) {
    forall k: nat :: IsDraw(spawn(k))
  }

  function PlayerBox(playerX: real): Rect {
    Rect(playerX, PlayerY, PlayerWidth, PlayerHeight)
  }

  /** The effect of a key press on the player's x. */
  function MovePlayer(playerX: real, key: Key): (x: real)
    ensures key.ArrowLeft? ==> x == Max(0.0, playerX - PlayerSpeed)
    ensures key.ArrowRight? ==> x == Min(PlayerMaxX, playerX + PlayerSpeed)
    ensures !key.ArrowLeft? && !key.ArrowRight? ==> x == playerX
  {
    match key
    case ArrowLeft =>
      var x := playerX - PlayerSpeed;
      if x < 0.0 then 0.0 else x
    case ArrowRight =>
      var x := playerX + PlayerSpeed;
      if x + PlayerWidth > CanvasWidth then CanvasWidth - PlayerWidth else x
    case _ => playerX
  }

  /** The player's x after a run of key presses. */
  function MovePlayerAll(playerX: real, keys: seq<Key>): real
    decreases |keys|
  {
    if |keys| == 0 then playerX else MovePlayerAll(MovePlayer(playerX, keys[0]), keys[1..])
  }

  /** One key press keeps an on-canvas player on the canvas. */
  lemma MovePlayerStaysOnCanvas(playerX: real, key: Key)
    requires 0.0 <= playerX <= PlayerMaxX
    ensures 0.0 <= MovePlayer(playerX, key) <= PlayerMaxX
  {
  }

  /** Any run of key presses keeps an on-canvas player on the canvas. */
  lemma {:induction false} MovePlayerAllStaysOnCanvas(playerX: real, keys: seq<Key>)
    requires 0.0 <= playerX <= PlayerMaxX
    ensures 0.0 <= MovePlayerAll(playerX, keys) <= PlayerMaxX
    decreases |keys|
  {
    if |keys| > 0 {
      MovePlayerStaysOnCanvas(playerX, keys[0]);
      MovePlayerAllStaysOnCanvas(MovePlayer(playerX, keys[0]), keys[1..]);
    }
  }

  /** The bullet `shootBullet` fires: 5 by 10, on the player's row, centred
      on the player. */
  function ShotFrom(playerX: real): (b: Rect)
    ensures b.w == ShotWidth && b.h == ShotHeight && b.y == PlayerY
    ensures b.x + b.w / 2.0 == playerX + PlayerWidth / 2.0
  {
    Rect(playerX + PlayerWidth / 2.0 - 2.5, PlayerY, ShotWidth, ShotHeight)
  }

  /** The enemy `createEnemy` adds for the draw r: on the top edge, wholly
      inside the canvas horizontally. */
  function EnemyAt(r: real): (e: Rect)
    requires IsDraw(r)
    ensures e.y == 0.0 && e.w == EnemySize && e.h == EnemySize
    ensures 0.0 <= e.x && e.x + e.w < CanvasWidth
  {
    Rect(r * (CanvasWidth - EnemySize), 0.0, EnemySize, EnemySize)
  }

  /** The monster `createMonster` builds for the draw r: full health, on
      the top edge, wholly inside the canvas horizontally. */
  function MonsterAt(r: real): (m: Monster)
    requires IsDraw(r)
    ensures m.health == MonsterHealth && m.speed == MonsterSpeed
    ensures m.box.y == 0.0 && m.box.w == MonsterWidth && m.box.h == MonsterHeight
    ensures 0.0 <= m.box.x && m.box.x + m.box.w < CanvasWidth
  {
    Monster(Rect(r * (CanvasWidth - MonsterWidth), 0.0, MonsterWidth, MonsterHeight), MonsterSpeed, MonsterHealth)
  }

  /** Every on-canvas enemy position is the spawn position of some draw. */
  lemma EnemyAtCovers(x: real)
    requires 0.0 <= x < CanvasWidth - EnemySize
    ensures exists r :: IsDraw(r) && EnemyAt(r).x == x
  {
    var r := x / (CanvasWidth - EnemySize);
    assert IsDraw(r) && EnemyAt(r).x == x;
  }

  /** A larger draw spawns an enemy further right. */
  lemma EnemyAtMonotone(r1: real, r2: real)
    requires IsDraw(r1) && IsDraw(r2) && r1 < r2
    ensures EnemyAt(r1).x < EnemyAt(r2).x
  {
  }

  /** Every on-canvas monster position is the spawn position of some draw. */
  lemma MonsterAtCovers(x: real)
    requires 0.0 <= x < CanvasWidth - MonsterWidth
    ensures exists r :: IsDraw(r) && MonsterAt(r).box.x == x
  {
    var r := x / (CanvasWidth - MonsterWidth);
    assert IsDraw(r) && MonsterAt(r).box.x == x;
  }

  /** A larger draw spawns the monster further right. */
  lemma MonsterAtMonotone(r1: real, r2: real)
    requires IsDraw(r1) && IsDraw(r2) && r1 < r2
    ensures MonsterAt(r1).box.x < MonsterAt(r2).box.x
  {
  }

  /** The bullet `shootMonsterBullet` fires: 5 by 10, centred under the
      monster, starting at its bottom edge. */
  function MonsterShot(m: Monster): (b: Rect)
    ensures b.w == ShotWidth && b.h == ShotHeight
    ensures b.x + b.w / 2.0 == m.box.x + m.box.w / 2.0
    ensures b.y == m.box.y + m.box.h
  {
    Rect(m.box.x + m.box.w / 2.0 - 2.5, m.box.y + m.box.h, ShotWidth, ShotHeight)
  }

  /** `getRandomDirection`: left for draws below one half, right otherwise. */
  function Turn(r: real): (d: int)
    ensures d == -1 || d == 1
    ensures d == -1 <==> r < 0.5
  {
    if r < 0.5 then -1 else 1
  }

  /** `Array.prototype.filter`: the elements satisfying p, each as often
      as in s. */
  function Keep(s: seq<Rect>, p: Rect -> bool): (r: seq<Rect>)
    ensures |r| <= |s|
    ensures forall b :: multiset(r)[b] == if p(b) then multiset(s)[b] else 0
  {
    if |s| == 0 then []
    else
      assert s == [s[0]] + s[1..];
      var rest := Keep(s[1..], p);
      if p(s[0]) then [s[0]] + rest else rest
  }

  /** Every rectangle moved vertically by dy, in order. */
  function Shift(s: seq<Rect>, dy: real): (r: seq<Rect>)
    ensures |r| == |s|
    ensures forall k :: 0 <= k < |s| ==> r[k] == Moved(s[k], dy)
  {
    if |s| == 0 then [] else [Moved(s[0], dy)] + Shift(s[1..], dy)
  }

  /** Moving is one-to-one, so each rectangle occurs in the moved
      collection as often as the rectangle it came from occurs in s. */
  lemma {:induction false} ShiftCount(s: seq<Rect>, dy: real, b: Rect)
    ensures multiset(Shift(s, dy))[b] == multiset(s)[Moved(b, -dy)]
    decreases |s|
  {
    if |s| > 0 {
      assert s == [s[0]] + s[1..];
      assert Shift(s, dy) == [Moved(s[0], dy)] + Shift(s[1..], dy);
      assert (Moved(s[0], dy) == b) == (s[0] == Moved(b, -dy));
      ShiftCount(s[1..], dy, b);
    }
  }

  /** Moving back undoes a move. */
  lemma ShiftBack(s: seq<Rect>, dy: real)
    ensures Shift(Shift(s, dy), -dy) == s
  {
    var t := Shift(Shift(s, dy), -dy);
    forall k | 0 <= k < |s|
      ensures t[k] == s[k]
    {
    }
  }

  /** `filter` keeps the order: filtering a concatenation filters each
      part and concatenates the results. */
  lemma {:induction false} KeepAppend(s: seq<Rect>, t: seq<Rect>, p: Rect -> bool)
    ensures Keep(s + t, p) == Keep(s, p) + Keep(t, p)
    decreases |s|
  {
    if |s| == 0 {
      assert s + t == t;
    } else {
      var u := s + t;
      assert u[0] == s[0] && u[1..] == s[1..] + t;
      KeepAppend(s[1..], t, p);
      if p(s[0]) {
        calc {
          Keep(u, p);
          [s[0]] + Keep(s[1..] + t, p);
          [s[0]] + (Keep(s[1..], p) + Keep(t, p));
          ([s[0]] + Keep(s[1..], p)) + Keep(t, p);
        }
      } else {
        assert Keep(u, p) == Keep(s[1..] + t, p);
      }
    }
  }

  /** A single rectangle is kept exactly when it passes the test. */
  lemma KeepOne(b: Rect, p: Rect -> bool)
    ensures Keep([b], p) == if p(b) then [b] else []
  {
    assert [b][1..] == [];
  }

  /** Moving a concatenation moves each part in place. */
  lemma {:induction false} ShiftAppend(s: seq<Rect>, t: seq<Rect>, dy: real)
    ensures Shift(s + t, dy) == Shift(s, dy) + Shift(t, dy)
    decreases |s|
  {
    if |s| == 0 {
      assert s + t == t;
    } else {
      var u := s + t;
      assert u[0] == s[0] && u[1..] == s[1..] + t;
      assert Shift(u, dy) == [Moved(s[0], dy)] + Shift(u[1..], dy);
      ShiftAppend(s[1..], t, dy);
    }
  }

  /** Every kept rectangle, moved, is in the moved collection. */
  lemma ShiftKeepHas(s: seq<Rect>, p: Rect -> bool, dy: real, b: Rect)
    requires b in s && p(b)
    ensures Moved(b, dy) in Shift(Keep(s, p), dy)
  {
    var kept := Keep(s, p);
    assert multiset(kept)[b] > 0;
    var k :| 0 <= k < |kept| && kept[k] == b;
    assert Shift(kept, dy)[k] == Moved(b, dy);
  }

  /** Every rectangle of the moved collection, moved back, was kept. */
  lemma ShiftKeepFrom(s: seq<Rect>, p: Rect -> bool, dy: real, b: Rect)
    requires b in Shift(Keep(s, p), dy)
    ensures Moved(b, -dy) in s && p(Moved(b, -dy))
  {
    var kept := Keep(s, p);
    var r := Shift(kept, dy);
    var k :| 0 <= k < |r| && r[k] == b;
    assert Moved(b, -dy) == kept[k];
    assert kept[k] in multiset(kept);
  }

  /** A collection after one frame: the rectangles satisfying p survive
      and then move by dy. Exactly the moved survivors are in the result;
      `SurvivorsCount` gives their multiplicities and `SurvivorsAppend`
      their order. */
  function Survivors(s: seq<Rect>, p: Rect -> bool, dy: real): (r: seq<Rect>)
    ensures |r| <= |s|
    ensures forall b :: b in s && p(b) ==> Moved(b, dy) in r
    ensures forall b :: b in r ==> Moved(b, -dy) in s && p(Moved(b, -dy))
  {
    var r := Shift(Keep(s, p), dy);
    assert forall b :: b in s && p(b) ==> Moved(b, dy) in r by {
      forall b | b in s && p(b) {
        ShiftKeepHas(s, p, dy, b);
      }
    }
    assert forall b :: b in r ==> Moved(b, -dy) in s && p(Moved(b, -dy)) by {
      forall b | b in r {
        ShiftKeepFrom(s, p, dy, b);
      }
    }
    r
  }

  /** Each moved survivor occurs as often as its origin did in s, and a
      rectangle whose origin fails the test does not occur at all. */
  lemma SurvivorsCount(s: seq<Rect>, p: Rect -> bool, dy: real, b: Rect)
    ensures multiset(Survivors(s, p, dy))[b] == if p(Moved(b, -dy)) then multiset(s)[Moved(b, -dy)] else 0
  {
    ShiftCount(Keep(s, p), dy, b);
  }

  /** Survivors keep their order: a frame over a concatenation is the
      frame over each part, concatenated. */
  lemma SurvivorsAppend(s: seq<Rect>, t: seq<Rect>, p: Rect -> bool, dy: real)
    ensures Survivors(s + t, p, dy) == Survivors(s, p, dy) + Survivors(t, p, dy)
  {
    KeepAppend(s, t, p);
    ShiftAppend(Keep(s, p), Keep(t, p), dy);
  }

  /** A single rectangle survives, moved, exactly when it passes the test. */
  lemma SurvivorsOne(b: Rect, p: Rect -> bool, dy: real)
    ensures Survivors([b], p, dy) == if p(b) then [Moved(b, dy)] else []
  {
    KeepOne(b, p);
  }
}

=== FILE: game_state.dfy ===
/** The game's global variables as one record, the reachable-state
    invariant, and the "stop every timer" step shared by game over, pause
    and exit. */
module GameState {
  import opened Options
  import opened Geometry
  import opened Entities
  import opened Timers

  /** `update`'s period (about 60 frames a second) and `createEnemy`'s. */
  const FramePeriod: real := 1000.0 / 60.0
  const EnemyPeriod: real := 2000.0

  datatype Game = Game(
    playerX: real,
    bullets: seq<Rect>,
    monsterBullets: seq<Rect>,
    enemies: seq<Rect>,
    monster: Option<Monster>,
    direction: int,
    score: int,
    bulletRate: real,
    paused: bool,
    over: bool,
    gameTimer: Slot,
    enemyTimer: Slot,
    bulletTimer: Slot,
    monsterTimer: Slot)

  /** The state after the page loads; r is the draw that picks the
      monster's first wander direction. */
  function Init(r: real): (g: Game)
    ensures g.score == 0 && g.bullets == [] && g.monsterBullets == [] && g.enemies == []
    ensures g.monster.None? && g.playerX == PlayerStartX && g.bulletRate == InitialBulletRate
    ensures !g.paused && !g.over
    ensures Firing(g.gameTimer) == 0 && Firing(g.enemyTimer) == 0
    ensures Firing(g.bulletTimer) == 0 && Firing(g.monsterTimer) == 0
  {
    Game(PlayerStartX, [], [], [], None, Turn(r), 0, InitialBulletRate,
         false, false, Unset, Unset, Unset, Unset)
  }

  /** The two states agree on everything but the flags and the timers. */
  predicate SameWorld(a: Game, b: Game) {
    && a.playerX == b.playerX
    && a.bullets == b.bullets
    && a.monsterBullets == b.monsterBullets
    && a.enemies == b.enemies
    && a.monster == b.monster
    && a.direction == b.direction
    && a.score == b.score
    && a.bulletRate == b.bulletRate
  }

  /** None of the four handles names a firing interval. */
  predicate Stopped(g: Game) {
    !Live(g.gameTimer) && !Live(g.enemyTimer) && !Live(g.bulletTimer) && !Live(g.monsterTimer)
  }

  predicate IsShot(b: Rect) {
    b.w == ShotWidth && b.h == ShotHeight
  }

  predicate IsEnemy(e: Rect) {
    e.w == EnemySize && e.h == EnemySize
  }

  predicate ProperMonster(m: Monster) {
    && m.box.w == MonsterWidth && m.box.h == MonsterHeight
    && m.speed == MonsterSpeed
    && 1 <= m.health <= MonsterHealth
  }

  /** What holds of every state the game reaches, whatever its flags. */
  predicate Sound(g: Game) {
    && 0.0 <= g.playerX <= PlayerMaxX
    && g.score >= 0
    && (g.direction == -1 || g.direction == 1)
    && (g.bulletRate == InitialBulletRate || g.bulletRate == InitialBulletRate / 2.0)
    && (forall b :: b in g.bullets ==> IsShot(b))
    && (forall b :: b in g.monsterBullets ==> IsShot(b))
    && (forall e :: e in g.enemies ==> IsEnemy(e))
    && (g.monster.Some? ==> ProperMonster(g.monster.value) && g.score >= RapidFireScore)
    && (Live(g.gameTimer) ==> g.gameTimer.handle.value.period == FramePeriod)
    && (Live(g.enemyTimer) ==> g.enemyTimer.handle.value.period == EnemyPeriod)
    && (Live(g.bulletTimer) ==> g.bulletTimer.handle.value.period == g.bulletRate)
    && g.monsterTimer.strays == 0
    && (g.monsterTimer.handle.Some? ==> g.monsterTimer.handle.value.period == 4.0 * (InitialBulletRate / 2.0))
  }

  /** The reachable-state invariant: sound, and no handle fires while the
      game is paused or over. */
  predicate Inv(g: Game) {
    Sound(g) && (g.paused || g.over ==> Stopped(g))
  }

  /** `clearInterval` on all four handles. Handles keep their values, so
      the monster-bullet handle stays set; strays keep firing. */
  function StopAll(g: Game): (r: Game)
    ensures Stopped(r) && SameWorld(g, r) && r.paused == g.paused && r.over == g.over
    ensures Firing(r.gameTimer) == g.gameTimer.strays && Firing(r.enemyTimer) == g.enemyTimer.strays
    ensures Firing(r.bulletTimer) == g.bulletTimer.strays && Firing(r.monsterTimer) == g.monsterTimer.strays
    ensures r.monsterTimer.handle.Some? == g.monsterTimer.handle.Some?
    ensures Sound(g) ==> Sound(r)
  {
    g.(gameTimer := ClearInterval(g.gameTimer),
       enemyTimer := ClearInterval(g.enemyTimer),
       bulletTimer := ClearInterval(g.bulletTimer),
       monsterTimer := ClearInterval(g.monsterTimer))
  }

  /** Game over (and exit): every timer stopped and `isGameOver` set. */
  function Halt(g: Game): (r: Game)
    ensures r.over && r.paused == g.paused && Stopped(r) && SameWorld(g, r)
    ensures r.monsterTimer.handle.Some? == g.monsterTimer.handle.Some?
    ensures Firing(r.gameTimer) == g.gameTimer.strays && Firing(r.enemyTimer) == g.enemyTimer.strays
    ensures Firing(r.bulletTimer) == g.bulletTimer.strays && Firing(r.monsterTimer) == g.monsterTimer.strays
    ensures Sound(g) ==> Inv(r)
  {
    StopAll(g).(over := true)
  }
}

=== FILE: geometry.dfy ===
/** Axis-aligned rectangles and the overlap test that the game applies to
    every collision: player bullet against enemy, player bullet against
    the monster, monster bullet against the player. */
module Geometry {

  /** A rectangle with its top-left corner at (x, y); y grows downward. */
  datatype Rect = Rect(x: real, y: real, w: real, h: real)

  /** Both sides positive: every rectangle the game builds is proper. */
  predicate Proper(r: Rect) {
    r.w > 0.0 && r.h > 0.0
  }

  /** The overlap test, with strict comparisons on both axes. */
  predicate Overlaps(a: Rect, b: Rect) {
    && a.x < b.x + b.w
    && a.x + a.w > b.x
    && a.y < b.y + b.h
    && a.y + a.h > b.y
  }

  /** The point (px, py) lies strictly inside r. */
  predicate Inside(px: real, py: real, r: Rect) {
    r.x < px < r.x + r.w && r.y < py < r.y + r.h
  }

  function Max(a: real, b: real): real { if a < b then b else a }

  function Min(a: real, b: real): real { if a < b then a else b }

  /** The rectangle moved vertically by dy. */
  function Moved(r: Rect, dy: real): (m: Rect)
    ensures m.x == r.x && m.w == r.w && m.h == r.h
    ensures m.y - r.y == dy
  {
    r.(y := r.y + dy)
  }

  /** The test does not depend on which rectangle is named first. */
  lemma OverlapsSymmetric(a: Rect, b: Rect)
    ensures Overlaps(a, b) <==> Overlaps(b, a)
  {
  }

  /** Rectangles that only share an edge do not collide. */
  lemma TouchingDoNotOverlap(a: Rect, b: Rect)
    requires a.x + a.w == b.x || b.x + b.w == a.x || a.y + a.h == b.y || b.y + b.h == a.y
    ensures !Overlaps(a, b) && !Overlaps(b, a)
  {
  }

  /** For proper rectangles the test is exactly "the interiors share a
      point"; the witness is the centre of the intersection. */
  lemma OverlapsIffSharedPoint(a: Rect, b: Rect)
    requires Proper(a) && Proper(b)
    ensures Overlaps(a, b) <==> exists px, py :: Inside(px, py, a) && Inside(px, py, b)
  {
    if Overlaps(a, b) {
      var px := (Max(a.x, b.x) + Min(a.x + a.w, b.x + b.w)) / 2.0;
      var py := (Max(a.y, b.y) + Min(a.y + a.h, b.y + b.h)) / 2.0;
      assert Inside(px, py, a) && Inside(px, py, b);
    }
  }
}

=== FILE: options.dfy ===
/** The optional value used for JavaScript's `null`/`undefined` slots:
    the monster and the interval handles. */
module Options {

  datatype Option<+T> = None | Some(value: T)
}

=== FILE: scenarios.dfy ===
/** Concrete runs of the model: a bullet meeting an enemy over two frames,
    a monster bullet ending the game, the monster's creation and defeat,
    and the quirks of splicing while iterating and of firing while paused. */
module Scenarios {
  import opened Options
  import opened Geometry
  import opened Entities
  import opened Timers
  import opened GameState
  import opened Controls
  import opened Collisions
  import opened Update

  /** A draw that never flips the monster's direction. */
  const Calm: real := 0.5

  function Draws(): (spawn: nat -> real)
    ensures ValidOracle(spawn)
  {
    (k: nat) => 0.5
  }

  function Armed(period: real): Slot {
    Slot(Some(Interval(period, true)), 0)
  }

  /** A running game with the player at its start position. */
  function Arena(bullets: seq<Rect>, monsterBullets: seq<Rect>, enemies: seq<Rect>,
                 monster: Option<Monster>, score: int): Game
  {
    Game(PlayerStartX, bullets, monsterBullets, enemies, monster, 1, score, InitialBulletRate,
         false, false, Armed(FramePeriod), Armed(EnemyPeriod), Armed(InitialBulletRate), Unset)
  }

  function Shot(x: real, y: real): Rect { Rect(x, y, ShotWidth, ShotHeight) }

  function Foe(x: real, y: real): Rect { Rect(x, y, EnemySize, EnemySize) }

  /** A frame whose settled state threatens nobody ends in that state. */
  lemma QuietTick(g: Game, s: Game)
    requires !g.paused && !g.over
    requires Settled(g, Calm, Calm, Draws()) == s && s.monsterBullets == [] && s.monster.None?
    requires forall e :: e in s.enemies ==> e.y + e.h <= PlayerY
    ensures Tick(g, Calm, Calm, Draws()) == s
  {
    assert PlayerHits(s, 0, 0) == s;
    assert !Breached(s);
  }

  /** A frame without a monster in which nothing collides settles in the
      advanced state. */
  lemma CalmSettles(g: Game, a: Game)
    requires Advance(g) == a && a.monster.None?
    requires CollisionPass(a, Draws()) == Pass(a, 0, 0, 0)
    ensures Settled(g, Calm, Calm, Draws()) == a
  {
    assert MoveMonster(a, Calm, Calm) == a;
  }

  /** A hit below the rapid-fire score only splices and scores. */
  lemma PlainHit(p: Pass, i: nat, j: nat, enemies: seq<Rect>, bullets: seq<Rect>)
    requires j < |p.g.enemies| && p.g.score + 1 < RapidFireScore
    requires enemies == RemoveAt(p.g.enemies, j) && bullets == RemoveAt(p.g.bullets, i)
    ensures OnEnemyHit(p, i, j, Draws())
         == p.(g := p.g.(enemies := enemies, bullets := bullets, score := p.g.score + 1), hits := p.hits + 1)
  {
  }

  /** An enemy loop visiting an enemy the bullet overlaps. */
  lemma HitStep(p: Pass, bullet: Rect, i: nat, j: nat, n: nat)
    requires j < n && j < |p.g.enemies| && Overlaps(bullet, p.g.enemies[j])
    ensures EnemyLoop(p, bullet, i, j, n, Draws()) == EnemyLoop(OnEnemyHit(p, i, j, Draws()), bullet, i, j + 1, n, Draws())
  {
  }

  /** An enemy loop whose remaining indices are all past the end. */
  lemma PastEnd(p: Pass, bullet: Rect, i: nat, j: nat, n: nat)
    requires |p.g.enemies| <= j
    decreases n - j
    ensures EnemyLoop(p, bullet, i, j, n, Draws()) == p
  {
    if j < n {
      PastEnd(p, bullet, i, j + 1, n);
    }
  }

  lemma FirstFrameAdvance()
    ensures Advance(Arena([Shot(117.5, 50.0)], [], [Foe(100.0, 0.0)], None, 0))
         == Arena([Shot(117.5, 44.0)], [], [Foe(100.0, 2.0)], None, 0)
  {
  }

  lemma FirstFrameMisses()
    ensures var a := Arena([Shot(117.5, 44.0)], [], [Foe(100.0, 2.0)], None, 0);
      CollisionPass(a, Draws()) == Pass(a, 0, 0, 0)
  {
    QuietPass(Arena([Shot(117.5, 44.0)], [], [Foe(100.0, 2.0)], None, 0), Draws());
  }

  lemma SecondFrameAdvance()
    ensures Advance(Arena([Shot(117.5, 44.0)], [], [Foe(100.0, 2.0)], None, 0))
         == Arena([Shot(117.5, 38.0)], [], [Foe(100.0, 4.0)], None, 0)
  {
  }

  /** One bullet overlapping the only enemy, below the rapid-fire score:
      both go and the score rises by one. */
  lemma LoneHit(g: Game, b: Rect, e: Rect)
    requires g.bullets == [b] && g.enemies == [e] && g.monster.None?
    requires Overlaps(b, e) && g.score + 1 < RapidFireScore
    ensures CollisionPass(g, Draws()) == Pass(g.(bullets := [], enemies := [], score := g.score + 1), 0, 1, 0)
  {
    var p := Pass(g, 0, 0, 0);
    var q := Pass(g.(bullets := [], enemies := [], score := g.score + 1), 0, 1, 0);
    PlainHit(p, 0, 0, [], []);
    assert EnemyLoop(p, b, 0, 0, 1, Draws()) == EnemyLoop(q, b, 0, 1, 1, Draws());
    assert MonsterCheck(q, b, 0) == q;
    assert BulletLoop(p, 0, 1, Draws()) == BulletLoop(q, 1, 1, Draws());
  }

  lemma SecondFrameHits()
    ensures var a := Arena([Shot(117.5, 38.0)], [], [Foe(100.0, 4.0)], None, 0);
      CollisionPass(a, Draws()) == Pass(Arena([], [], [], None, 1), 0, 1, 0)
  {
    LoneHit(Arena([Shot(117.5, 38.0)], [], [Foe(100.0, 4.0)], None, 0), Shot(117.5, 38.0), Foe(100.0, 4.0));
  }

  lemma FirstFrame()
    ensures Tick(Arena([Shot(117.5, 50.0)], [], [Foe(100.0, 0.0)], None, 0), Calm, Calm, Draws())
         == Arena([Shot(117.5, 44.0)], [], [Foe(100.0, 2.0)], None, 0)
  {
    var g0 := Arena([Shot(117.5, 50.0)], [], [Foe(100.0, 0.0)], None, 0);
    var g1 := Arena([Shot(117.5, 44.0)], [], [Foe(100.0, 2.0)], None, 0);
    FirstFrameAdvance();
    FirstFrameMisses();
    CalmSettles(g0, g1);
    QuietTick(g0, g1);
  }

  lemma SecondFrame()
    ensures Tick(Arena([Shot(117.5, 44.0)], [], [Foe(100.0, 2.0)], None, 0), Calm, Calm, Draws())
         == Arena([], [], [], None, 1)
  {
    var a1 := Arena([Shot(117.5, 38.0)], [], [Foe(100.0, 4.0)], None, 0);
    SecondFrameAdvance();
    SecondFrameHits();
    assert MoveMonster(a1, Calm, Calm) == a1;
    QuietTick(Arena([Shot(117.5, 44.0)], [], [Foe(100.0, 2.0)], None, 0), Arena([], [], [], None, 1));
  }

  /** A bullet at (117.5, 50) and an enemy at (100, 0): the first frame
      moves them to 44 and 2, which do not overlap; the second frame
      brings them to 38 and 4, removes both and scores 1. */
  lemma BulletMeetsEnemy()
    ensures var g1 := Tick(Arena([Shot(117.5, 50.0)], [], [Foe(100.0, 0.0)], None, 0), Calm, Calm, Draws());
      && g1 == Arena([Shot(117.5, 44.0)], [], [Foe(100.0, 2.0)], None, 0)
      && Tick(g1, Calm, Calm, Draws()) == Arena([], [], [], None, 1)
  {
    FirstFrame();
    SecondFrame();
  }

  /** The two hits of the innocent-bullet run, one splice pair each. */
  lemma InnocentBulletFirstHit()
    ensures OnEnemyHit(Pass(Arena([Shot(100.0, 100.0), Shot(600.0, 100.0)], [],
                                  [Foe(90.0, 90.0), Foe(300.0, 90.0), Foe(80.0, 80.0)], None, 0), 0, 0, 0), 0, 0, Draws())
         == Pass(Arena([Shot(600.0, 100.0)], [], [Foe(300.0, 90.0), Foe(80.0, 80.0)], None, 1), 0, 1, 0)
  {
    var enemies := [Foe(90.0, 90.0), Foe(300.0, 90.0), Foe(80.0, 80.0)];
    var bullets := [Shot(100.0, 100.0), Shot(600.0, 100.0)];
    assert RemoveAt(enemies, 0) == [Foe(300.0, 90.0), Foe(80.0, 80.0)];
    assert RemoveAt(bullets, 0) == [Shot(600.0, 100.0)];
    PlainHit(Pass(Arena(bullets, [], enemies, None, 0), 0, 0, 0), 0, 0,
             [Foe(300.0, 90.0), Foe(80.0, 80.0)], [Shot(600.0, 100.0)]);
  }

  lemma InnocentBulletSecondHit()
    ensures OnEnemyHit(Pass(Arena([Shot(600.0, 100.0)], [], [Foe(300.0, 90.0), Foe(80.0, 80.0)], None, 1), 0, 1, 0), 0, 1, Draws())
         == Pass(Arena([], [], [Foe(300.0, 90.0)], None, 2), 0, 2, 0)
  {
    var enemies := [Foe(300.0, 90.0), Foe(80.0, 80.0)];
    var bullets := [Shot(600.0, 100.0)];
    assert RemoveAt(enemies, 1) == [Foe(300.0, 90.0)];
    assert RemoveAt(bullets, 0) == [];
    PlainHit(Pass(Arena(bullets, [], enemies, None, 1), 0, 1, 0), 0, 1, [Foe(300.0, 90.0)], []);
  }

  lemma InnocentBulletEnemyLoop()
    ensures var p0 := Pass(Arena([Shot(100.0, 100.0), Shot(600.0, 100.0)], [],
                                 [Foe(90.0, 90.0), Foe(300.0, 90.0), Foe(80.0, 80.0)], None, 0), 0, 0, 0);
      EnemyLoop(p0, Shot(100.0, 100.0), 0, 0, 3, Draws()) == Pass(Arena([], [], [Foe(300.0, 90.0)], None, 2), 0, 2, 0)
  {
    var p0 := Pass(Arena([Shot(100.0, 100.0), Shot(600.0, 100.0)], [],
                         [Foe(90.0, 90.0), Foe(300.0, 90.0), Foe(80.0, 80.0)], None, 0), 0, 0, 0);
    var p1 := Pass(Arena([Shot(600.0, 100.0)], [], [Foe(300.0, 90.0), Foe(80.0, 80.0)], None, 1), 0, 1, 0);
    var p2 := Pass(Arena([], [], [Foe(300.0, 90.0)], None, 2), 0, 2, 0);
    var b := Shot(100.0, 100.0);
    InnocentBulletFirstHit();
    InnocentBulletSecondHit();
    HitStep(p0, b, 0, 0, 3);
    HitStep(p1, b, 0, 1, 3);
    PastEnd(p2, b, 0, 2, 3);
  }

  /** One bullet overlapping the first and third enemies: the first hit
      splices enemy 0 and bullet 0, the second hit (enemy 2, now at index
      1) splices bullet 0 again, which by then is the other bullet, one
      that hit nothing. The middle enemy survives. */
  lemma SpliceRemovesInnocentBullet()
    ensures var a := Arena([Shot(100.0, 100.0), Shot(600.0, 100.0)], [],
                           [Foe(90.0, 90.0), Foe(300.0, 90.0), Foe(80.0, 80.0)], None, 0);
      && !Overlaps(Shot(600.0, 100.0), Foe(90.0, 90.0))
      && !Overlaps(Shot(600.0, 100.0), Foe(300.0, 90.0))
      && !Overlaps(Shot(600.0, 100.0), Foe(80.0, 80.0))
      && CollisionPass(a, Draws()) == Pass(Arena([], [], [Foe(300.0, 90.0)], None, 2), 0, 2, 0)
  {
    var a := Arena([Shot(100.0, 100.0), Shot(600.0, 100.0)], [],
                   [Foe(90.0, 90.0), Foe(300.0, 90.0), Foe(80.0, 80.0)], None, 0);
    var p2 := Pass(Arena([], [], [Foe(300.0, 90.0)], None, 2), 0, 2, 0);
    InnocentBulletEnemyLoop();
    assert MonsterCheck(p2, Shot(100.0, 100.0), 0) == p2;
    assert BulletLoop(Pass(a, 0, 0, 0), 0, 2, Draws()) == BulletLoop(p2, 1, 2, Draws());
    assert BulletLoop(p2, 1, 2, Draws()) == p2;
  }

  lemma SkipHit()
    ensures OnEnemyHit(Pass(Arena([Shot(100.0, 100.0)], [], [Foe(90.0, 90.0), Foe(80.0, 80.0)], None, 0), 0, 0, 0), 0, 0, Draws())
         == Pass(Arena([], [], [Foe(80.0, 80.0)], None, 1), 0, 1, 0)
  {
  }

  /** After a splice the element that moves into the visited index is
      skipped: a bullet overlapping two adjacent enemies kills only the
      first. */
  lemma SpliceSkipsNextEnemy()
    ensures var a := Arena([Shot(100.0, 100.0)], [], [Foe(90.0, 90.0), Foe(80.0, 80.0)], None, 0);
      && Overlaps(Shot(100.0, 100.0), Foe(80.0, 80.0))
      && CollisionPass(a, Draws()) == Pass(Arena([], [], [Foe(80.0, 80.0)], None, 1), 0, 1, 0)
  {
    var a := Arena([Shot(100.0, 100.0)], [], [Foe(90.0, 90.0), Foe(80.0, 80.0)], None, 0);
    var p1 := Pass(Arena([], [], [Foe(80.0, 80.0)], None, 1), 0, 1, 0);
    SkipHit();
    assert EnemyLoop(Pass(a, 0, 0, 0), Shot(100.0, 100.0), 0, 0, 2, Draws()) == EnemyLoop(p1, Shot(100.0, 100.0), 0, 1, 2, Draws());
    assert EnemyLoop(p1, Shot(100.0, 100.0), 0, 1, 2, Draws()) == p1;
    assert MonsterCheck(p1, Shot(100.0, 100.0), 0) == p1;
    assert BulletLoop(Pass(a, 0, 0, 0), 0, 1, Draws()) == BulletLoop(p1, 1, 1, Draws());
  }

  lemma StrikeFrameSettles()
    ensures Settled(Arena([], [Shot(400.0, 530.0)], [], None, 0), Calm, Calm, Draws())
         == Arena([], [Shot(400.0, 532.0)], [], None, 0)
  {
    var a := Arena([], [Shot(400.0, 532.0)], [], None, 0);
    assert Advance(Arena([], [Shot(400.0, 530.0)], [], None, 0)) == a;
    assert MoveMonster(a, Calm, Calm) == a;
    assert CollisionPass(a, Draws()) == Pass(a, 0, 0, 0);
  }

  /** A monster bullet that reaches the player ends the game: all four
      handled timers stop, and later frames change nothing. */
  lemma MonsterBulletEndsGame()
    ensures var g := Tick(Arena([], [Shot(400.0, 530.0)], [], None, 0), Calm, Calm, Draws());
      && g.over && Stopped(g) && g.monsterBullets == [] && g.score == 0
      && Tick(g, Calm, Calm, Draws()) == g
  {
    var a := Arena([], [Shot(400.0, 532.0)], [], None, 0);
    StrikeFrameSettles();
    assert Overlaps(Shot(400.0, 532.0), PlayerBox(a.playerX));
    assert PlayerStruck(a);
  }

  /** The twelfth point creates the monster, with full health, and halves
      the fire period; the next hit keeps that monster and creates none. */
  lemma MonsterCreatedOnce(p: Pass, spawn: nat -> real)
    requires ValidOracle(spawn)
    requires p.g.score == 11 && p.g.monster.None? && |p.g.enemies| >= 2
    ensures var q := OnEnemyHit(p, 0, 0, spawn);
      && q.g.monster == Some(MonsterAt(spawn(p.created))) && q.created == p.created + 1
      && q.g.bulletRate == 75.0 && q.g.bulletTimer.handle.value.period == 75.0
      && var q2 := OnEnemyHit(q, 0, 0, spawn);
      q2.g.monster == q.g.monster && q2.created == q.created && q2.g.score == 13
  {
  }

  /** A fresh monster survives four hits and falls to the fifth, which
      scores 5 and nulls the monster-bullet handle. */
  lemma FiveHitsDefeatMonster(p: Pass, r: real)
    requires IsDraw(r) && p.g.monster == Some(MonsterAt(r))
    ensures var p4 := StrikeMonster(StrikeMonster(StrikeMonster(StrikeMonster(p))));
      && p4.g.monster.Some? && p4.g.monster.value.health == 1 && p4.g.score == p.g.score
      && var p5 := StrikeMonster(p4);
      p5.g.monster.None? && p5.g.score == p.g.score + 5 && p5.defeats == p.defeats + 1
      && p5.g.monsterTimer.handle.None?
  {
  }

  /** Space still fires while the game is paused. */
  lemma SpaceFiresWhilePaused(g: Game)
    requires g.paused && !g.over
    ensures KeyUp(g, Space).bullets == g.bullets + [ShotFrom(g.playerX)]
  {
  }
}

=== FILE: timers.dfy ===
/** `setInterval` / `clearInterval` as abstract state. A handle variable
    such as `gameInterval` names the interval created last; assigning a new
    interval to it while the old one still fires loses the old one, which
    keeps firing as a stray that no `clearInterval` can reach. */
module Timers {
  import opened Options

  /** One registered interval: its period in milliseconds and whether it
      still fires. */
  datatype Interval = Interval(period: real, running: bool)

  /** A handle variable and the number of unreachable intervals it left
      behind. `handle == None` is the handle's `undefined` or `null`. */
  datatype Slot = Slot(handle: Option<Interval>, strays: nat)

  const Unset: Slot := Slot(None, 0)

  /** The interval the handle names is still firing. */
  predicate Live(s: Slot) {
    s.handle.Some? && s.handle.value.running
  }

  /** How many intervals of this kind fire. */
  function Firing(s: Slot): nat {
    s.strays + if Live(s) then 1 else 0
  }

  /** `handle = setInterval(task, period)`: a new interval starts and
      nothing already firing is stopped. */
  function SetInterval(s: Slot, period: real): (r: Slot)
    ensures Live(r) && r.handle.value.period == period
    ensures Firing(r) == Firing(s) + 1
  {
    Slot(Some(Interval(period, true)), Firing(s))
  }

  /** `clearInterval(handle)`: stops exactly the interval the handle names;
      the handle keeps its value and strays keep firing. */
  function ClearInterval(s: Slot): (r: Slot)
    ensures !Live(r) && r.strays == s.strays
    ensures Firing(r) + (if Live(s) then 1 else 0) == Firing(s)
    ensures r.handle.Some? == s.handle.Some?
    ensures r.handle.Some? ==> r.handle.value.period == s.handle.value.period
  {
    match s.handle
    case None => s
    case Some(i) => s.(handle := Some(i.(running := false)))
  }

  /** `handle = null`. */
  function Forget(s: Slot): Slot {
    s.(handle := None)
  }

  /** Clearing an interval twice is the same as clearing it once. */
  lemma ClearIntervalIdempotent(s: Slot)
    ensures ClearInterval(ClearInterval(s)) == ClearInterval(s)
  {
  }

  /** Clearing and re-arming a handle, as the bullet timer is re-armed on
      a hit, leaves exactly one interval more than the strays. */
  lemma ReArmAddsNoStray(s: Slot, period: real)
    ensures SetInterval(ClearInterval(s), period).strays == s.strays
    ensures Firing(SetInterval(ClearInterval(s), period)) == s.strays + 1
  {
  }
}

=== FILE: traces.dfy ===
/** Everything that can happen to the game, one event at a time: key
    presses, button clicks and timer callbacks. A timer callback can only
    happen while an interval of its kind fires; the order in which timers
    fire is left open. */
module Traces {
  import opened Options
  import opened Geometry
  import opened Entities
  import opened Timers
  import opened GameState
  import opened Controls
  import opened Update

  datatype Event =
    | KeyPressed(key: Key)
    | KeyReleased(key: Key)
    | PlayClick
    | PauseResumeClick
    | ExitClick
    | EnemyDue(draw: real)
    | ShotDue
    | MonsterShotDue
    | FrameDue(flip: real, turn: real, spawn: nat -> real)

  /** The event can happen in g: its draws are values `Math.random` can
      return, and a callback's timer is firing. */
  ghost predicate Admissible(g: Game, e: Event) {
    match e
    case EnemyDue(r) => IsDraw(r) && Firing(g.enemyTimer) > 0
    case ShotDue => Firing(g.bulletTimer) > 0
    case MonsterShotDue => Firing(g.monsterTimer) > 0
    case FrameDue(flip, turn, spawn) => IsDraw(flip) && IsDraw(turn) && ValidOracle(spawn) && Firing(g.gameTimer) > 0
    case _ => true
  }

  /** One event, handed to its handler. Only Play lowers the score, and
      only on a finished game; only Play restarts a finished game; only
      Exit and a frame end one. */
  function Step(g: Game, e: Event): (r: Game)
    requires Admissible(g, e)
    ensures r.score < g.score ==> e.PlayClick? && g.over
    ensures g.over && !e.PlayClick? ==> r.over
    ensures !g.over && r.over ==> e.ExitClick? || e.FrameDue?
  {
    match e
    case KeyPressed(key) => KeyDown(g, key)
    case KeyReleased(key) => KeyUp(g, key)
    case PlayClick => PlayClicked(g)
    case PauseResumeClick => PauseResumeClicked(g)
    case ExitClick => ExitGame(g)
    case EnemyDue(r) => CreateEnemy(g, r)
    case ShotDue => ShootBullet(g)
    case MonsterShotDue => ShootMonsterBullet(g)
    case FrameDue(flip, turn, spawn) => Tick(g, flip, turn, spawn)
  }

  /** Every event of the trace can happen in the state it meets. */
  ghost predicate AdmissibleRun(g: Game, es: seq<Event>)
    decreases |es|
  {
    |es| == 0 || (Admissible(g, es[0]) && AdmissibleRun(Step(g, es[0]), es[1..]))
  }

  function Run(g: Game, es: seq<Event>): Game
    requires AdmissibleRun(g, es)
    decreases |es|
  {
    if |es| == 0 then g else Run(Step(g, es[0]), es[1..])
  }

  /** The page-load state satisfies the invariant. */
  lemma InitSatisfiesInv(r: real)
    ensures Inv(Init(r))
  {
  }

  /** Every event preserves the invariant; the only event that lowers the
      score is Play on a finished game. */
  lemma StepPreservesInv(g: Game, e: Event)
    requires Inv(g) && Admissible(g, e)
    ensures Inv(Step(g, e))
    ensures Step(g, e).score < g.score ==> e.PlayClick? && g.over
  {
  }

  /** The invariant holds after any admissible run; in particular the
      player stays within [0, 735], monsters keep health 1 to 5 and
      nothing fires while paused or over but strays. */
  lemma {:induction false} RunPreservesInv(g: Game, es: seq<Event>)
    requires Inv(g) && AdmissibleRun(g, es)
    ensures Inv(Run(g, es))
    decreases |es|
  {
    if |es| > 0 {
      StepPreservesInv(g, es[0]);
      RunPreservesInv(Step(g, es[0]), es[1..]);
    }
  }

  /** Without Play the score never decreases. */
  lemma {:induction false} ScoreNeverDrops(g: Game, es: seq<Event>)
    requires Inv(g) && AdmissibleRun(g, es)
    requires forall k :: 0 <= k < |es| ==> !es[k].PlayClick?
    ensures Run(g, es).score >= g.score
    decreases |es|
  {
    if |es| > 0 {
      StepPreservesInv(g, es[0]);
      ScoreNeverDrops(Step(g, es[0]), es[1..]);
    }
  }

  /** Once the game is over, frames, Pause/Resume and Exit leave the score
      and the entities as they are. (A spawner callback can still add an
      entity, but only from a stray interval: the handled ones are stopped.) */
  lemma {:induction false} OverIsFrozen(g: Game, es: seq<Event>)
    requires Inv(g) && g.over && AdmissibleRun(g, es)
    requires forall k :: 0 <= k < |es| ==> es[k].FrameDue? || es[k].PauseResumeClick? || es[k].ExitClick?
    ensures Run(g, es).over && Run(g, es).score == g.score && SameWorld(g, Run(g, es))
    decreases |es|
  {
    if |es| > 0 {
      StepPreservesInv(g, es[0]);
      OverIsFrozen(Step(g, es[0]), es[1..]);
    }
  }
}

=== FILE: update.dfy ===
/** One call of `update`, the frame callback: prune and move every
    collection, move the monster, run the collision pass, then the two
    game-over checks. Drawing is left out. */
module Update {
  import opened Options
  import opened Geometry
  import opened Entities
  import opened Timers
  import opened GameState
  import opened Collisions

  function Abs(a: real): real { if a < 0.0 then -a else a }

  /** A player bullet is kept while strictly below the top edge. */
  predicate BelowTop(b: Rect) {
    b.y > 0.0
  }

  /** Enemies and monster bullets are kept while strictly above the bottom edge. */
  predicate AboveBottom(b: Rect) {
    b.y < CanvasHeight
  }

  /** The three collections after pruning and moving: bullets at or above
      the top edge are dropped and the rest rise by 6; monster bullets and
      enemies at or below the bottom edge are dropped and the rest fall
      by 2. Pruning looks at positions before the move. */
  function Advance(g: Game): (r: Game)
    ensures forall b :: b in g.bullets && b.y > 0.0 ==> Moved(b, -6.0) in r.bullets
    ensures forall b :: b in r.bullets ==> Moved(b, 6.0) in g.bullets && Moved(b, 6.0).y > 0.0
    ensures forall b :: b in g.monsterBullets && b.y < CanvasHeight ==> Moved(b, 2.0) in r.monsterBullets
    ensures forall b :: b in r.monsterBullets ==> Moved(b, -2.0) in g.monsterBullets && Moved(b, -2.0).y < CanvasHeight
    ensures forall e :: e in g.enemies && e.y < CanvasHeight ==> Moved(e, 2.0) in r.enemies
    ensures forall e :: e in r.enemies ==> Moved(e, -2.0) in g.enemies && Moved(e, -2.0).y < CanvasHeight
    ensures |r.bullets| <= |g.bullets| && |r.monsterBullets| <= |g.monsterBullets| && |r.enemies| <= |g.enemies|
    ensures r == g.(bullets := r.bullets, monsterBullets := r.monsterBullets, enemies := r.enemies)
    ensures Sound(g) ==> Sound(r)
  {
    var bullets := Survivors(g.bullets, BelowTop, -BulletSpeed);
    var monsterBullets := Survivors(g.monsterBullets, AboveBottom, BulletSpeed / 3.0);
    var enemies := Survivors(g.enemies, AboveBottom, EnemySpeed);
    var r := g.(bullets := bullets, monsterBullets := monsterBullets, enemies := enemies);
    assert Sound(g) ==> Sound(r) by {
      if Sound(g) {
        forall b | b in bullets
          ensures IsShot(b)
        {
          assert Moved(b, -(-BulletSpeed)) in g.bullets;
        }
        forall b | b in monsterBullets
          ensures IsShot(b)
        {
          assert Moved(b, -(BulletSpeed / 3.0)) in g.monsterBullets;
        }
        forall e | e in enemies
          ensures IsEnemy(e)
        {
          assert Moved(e, -EnemySpeed) in g.enemies;
        }
      }
    }
    r
  }

  /** Advance keeps multiplicities: each moved survivor occurs as often as
      its origin did, and nothing else occurs. Two equal shots stay two. */
  lemma AdvanceCounts(g: Game, b: Rect)
    ensures multiset(Advance(g).bullets)[b]
         == if Moved(b, 6.0).y > 0.0 then multiset(g.bullets)[Moved(b, 6.0)] else 0
    ensures multiset(Advance(g).monsterBullets)[b]
         == if Moved(b, -2.0).y < CanvasHeight then multiset(g.monsterBullets)[Moved(b, -2.0)] else 0
    ensures multiset(Advance(g).enemies)[b]
         == if Moved(b, -2.0).y < CanvasHeight then multiset(g.enemies)[Moved(b, -2.0)] else 0
  {
    SurvivorsCount(g.bullets, BelowTop, -BulletSpeed, b);
    SurvivorsCount(g.monsterBullets, AboveBottom, BulletSpeed / 3.0, b);
    SurvivorsCount(g.enemies, AboveBottom, EnemySpeed, b);
  }

  /** Advance keeps order: on collections that are concatenations it
      advances each part and concatenates the results. */
  lemma AdvanceAppend(g: Game, h1: Game, h2: Game)
    requires g.bullets == h1.bullets + h2.bullets
    requires g.monsterBullets == h1.monsterBullets + h2.monsterBullets
    requires g.enemies == h1.enemies + h2.enemies
    ensures Advance(g).bullets == Advance(h1).bullets + Advance(h2).bullets
    ensures Advance(g).monsterBullets == Advance(h1).monsterBullets + Advance(h2).monsterBullets
    ensures Advance(g).enemies == Advance(h1).enemies + Advance(h2).enemies
  {
    SurvivorsAppend(h1.bullets, h2.bullets, BelowTop, -BulletSpeed);
    SurvivorsAppend(h1.monsterBullets, h2.monsterBullets, AboveBottom, BulletSpeed / 3.0);
    SurvivorsAppend(h1.enemies, h2.enemies, AboveBottom, EnemySpeed);
  }

  /** One rectangle of each kind: it is dropped or moved by its step. */
  lemma AdvanceOne(g: Game, b: Rect, c: Rect, e: Rect)
    requires g.bullets == [b] && g.monsterBullets == [c] && g.enemies == [e]
    ensures Advance(g).bullets == if b.y > 0.0 then [Moved(b, -6.0)] else []
    ensures Advance(g).monsterBullets == if c.y < CanvasHeight then [Moved(c, 2.0)] else []
    ensures Advance(g).enemies == if e.y < CanvasHeight then [Moved(e, 2.0)] else []
  {
    SurvivorsOne(b, BelowTop, -BulletSpeed);
    SurvivorsOne(c, AboveBottom, BulletSpeed / 3.0);
    SurvivorsOne(e, AboveBottom, EnemySpeed);
  }

  /** The direction for this frame's sideways step: with a flip draw
      below 0.01 it is redrawn from the turn draw, otherwise it is kept. */
  function Heading(dir: int, flip: real, turn: real): (d: int)
    ensures flip < 0.01 ==> d == Turn(turn)
    ensures 0.01 <= flip ==> d == dir
    ensures d != dir ==> flip < 0.01
    ensures (dir == -1 || dir == 1) ==> (d == -1 || d == 1)
  {
    if flip < 0.01 then Turn(turn) else dir
  }

  /** The monster's wander: it falls by its speed and steps sideways by
      its speed in this frame's heading. A step that ends left of the
      canvas is clamped to 0 and turns right; one that ends past the right
      edge is clamped to 800 - w and turns left; any other step stands and
      the heading is kept. The result is the moved monster and the new
      direction. */
  function Steer(m: Monster, dir: int, flip: real, turn: real): (r: (Monster, int))
    ensures r.0.box.y == m.box.y + m.speed
    ensures r.0.box.w == m.box.w && r.0.box.h == m.box.h
    ensures r.0.speed == m.speed && r.0.health == m.health
    ensures var d := Heading(dir, flip, turn); var x := m.box.x + (d as real) * m.speed;
      && (x < 0.0 ==> r.0.box.x == 0.0 && r.1 == 1)
      && (0.0 <= x && x + m.box.w > CanvasWidth ==> r.0.box.x == CanvasWidth - m.box.w && r.1 == -1)
      && (0.0 <= x && x + m.box.w <= CanvasWidth ==> r.0.box.x == x && r.1 == d)
    ensures m.box.w <= CanvasWidth ==> 0.0 <= r.0.box.x <= CanvasWidth - m.box.w
    ensures (dir == -1 || dir == 1) ==> (r.1 == -1 || r.1 == 1)
  {
    var d := Heading(dir, flip, turn);
    var x := m.box.x + (d as real) * m.speed;
    var moved := m.(box := m.box.(x := x, y := m.box.y + m.speed));
    if x < 0.0 then (moved.(box := moved.box.(x := 0.0)), 1)
    else if x + m.box.w > CanvasWidth then (moved.(box := moved.box.(x := CanvasWidth - m.box.w)), -1)
    else (moved, d)
  }

  /** The dodge at score 50 or more: for each bullet, in order, whose x is
      within 30 of the monster's, the monster steps twice its speed away
      from it, if the guard allows. The guard tests the position before
      the step, so the step can carry the monster up to twice its speed
      past either wall. */
  function Dodge(m: Monster, bullets: seq<Rect>): (r: Monster)
    decreases |bullets|
    ensures r == m.(box := m.box.(x := r.box.x))
    ensures m.speed >= 0.0 && -2.0 * m.speed < m.box.x < CanvasWidth - m.box.w + 2.0 * m.speed ==>
      -2.0 * m.speed < r.box.x < CanvasWidth - m.box.w + 2.0 * m.speed
  {
    if |bullets| == 0 then m
    else
      var b := bullets[0];
      var x := m.box.x;
      var x' :=
        if Abs(b.x - x) < 30.0 then
          if b.x < x && x + m.box.w < CanvasWidth then x + m.speed * 2.0
          else if b.x > x && x > 0.0 then x - m.speed * 2.0
          else x
        else x;
      Dodge(m.(box := m.box.(x := x')), bullets[1..])
  }

  /** A dodge can leave the monster outside the wander bound of 720. */
  lemma DodgeCanPassTheWall()
    ensures Dodge(Monster(Rect(719.0, 100.0, MonsterWidth, MonsterHeight), MonsterSpeed, 3),
                  [Rect(700.0, 200.0, ShotWidth, ShotHeight)]).box.x == 721.0
  {
  }

  /** The monster's part of the frame: wander, then dodge when the score
      is 50 or more. Only the monster and the direction change. */
  function MoveMonster(g: Game, flip: real, turn: real): (r: Game)
    ensures r == g.(monster := r.monster, direction := r.direction)
    ensures g.monster.None? ==> r == g
    ensures g.monster.Some? ==>
      var s := Steer(g.monster.value, g.direction, flip, turn);
      && r.direction == s.1
      && r.monster == Some(if g.score < DodgeScore then s.0 else Dodge(s.0, g.bullets))
    ensures g.monster.Some? ==>
      && r.monster.Some?
      && r.monster.value.health == g.monster.value.health
      && r.monster.value.box.y == g.monster.value.box.y + g.monster.value.speed
    ensures g.monster.Some? && g.score < DodgeScore && g.monster.value.box.w <= CanvasWidth ==>
      0.0 <= r.monster.value.box.x <= CanvasWidth - g.monster.value.box.w
    ensures g.monster.Some? && ProperMonster(g.monster.value) ==>
      -2.0 < r.monster.value.box.x < CanvasWidth - MonsterWidth + 2.0
    ensures Sound(g) ==> Sound(r)
  {
    match g.monster
    case None => g
    case Some(m) =>
      var (steered, dir) := Steer(m, g.direction, flip, turn);
      var moved := if g.score >= DodgeScore then Dodge(steered, g.bullets) else steered;
      g.(monster := Some(moved), direction := dir)
  }

  /** Some enemy's bottom edge, or the monster's, is below the player's top. */
  predicate Breached(g: Game): (b: bool)
    ensures b <==>
      || (exists e :: e in g.enemies && e.y + e.h > PlayerY)
      || (g.monster.Some? && g.monster.value.box.y + g.monster.value.box.h > PlayerY)
  {
    || (exists k :: 0 <= k < |g.enemies| && g.enemies[k].y + g.enemies[k].h > PlayerY)
    || (g.monster.Some? && g.monster.value.box.y + g.monster.value.box.h > PlayerY)
  }

  /** The state after moving and the collision pass, before the checks
      against the player. */
  function Settled(g: Game, flip: real, turn: real, spawn: nat -> real): Game
    requires ValidOracle(spawn)
  {
    CollisionPass(MoveMonster(Advance(g), flip, turn), spawn).g
  }

  /** `update`. A paused or finished game is left unchanged. Otherwise the
      game ends, with every handled timer stopped, exactly when a monster
      bullet overlaps the player or an enemy or the monster has come down
      past the player's top edge; the score never drops. */
  function Tick(g: Game, flip: real, turn: real, spawn: nat -> real): (r: Game)
    requires ValidOracle(spawn)
    ensures g.paused || g.over ==> r == g
    ensures r.score >= g.score && r.paused == g.paused && r.playerX == g.playerX
    ensures r.over && !g.over ==> Stopped(r)
    ensures !g.paused && !g.over ==>
      (r.over <==> PlayerStruck(Settled(g, flip, turn, spawn)) || Breached(Settled(g, flip, turn, spawn)))
    ensures !g.paused && !g.over && !r.over ==> r == Settled(g, flip, turn, spawn)
    ensures !g.paused && !g.over && r.over ==>
      var s := Settled(g, flip, turn, spawn);
      && SameWorld(s, r.(monsterBullets := s.monsterBullets))
      && multiset(r.monsterBullets) <= multiset(s.monsterBullets)
    ensures Inv(g) ==> Inv(r)
  {
    if g.paused || g.over then g
    else
      var s := Settled(g, flip, turn, spawn);
      PlayerHitsDetects(s, 0);
      var h := PlayerHits(s, 0, |s.monsterBullets|);
      if Breached(h) then Halt(h) else h
  }
}
